=== FILE: README.md ===
# FASN.SYS client logic in Dafny

FASN.SYS is a mock learning-portal front end. Its behaviour is a handful of
client-side state machines and pure rules inside React handlers. This project
models them as immutable records with pure transition functions, and proves
the guards, bounds, list updates and "nothing else changes" promises of each
handler.

- `types.dfy` (`Types`): the records of `types.ts`, including users, units,
  courses, quiz questions and results, chat messages and the view enumeration.
- `text.dfy` (`Text`): the JavaScript string primitives the handlers use:
  the `\s` class, `trim`, `includes` and `replace(/\s+/g, '_')`.
- `quiz.dfy` (`QuizEngine`): the quiz card of `components/Quiz.tsx`, covering
  - scoring and the three mastery tiers;
  - the session (loading, failure screen, active card);
  - the option, Previous, Next, Submit, Complete and Return controls, with
    their enabled-guards;
  - runs of clicks.
- `navigation.dfy` (`Navigation`): the controller of `App.tsx`, covering
  - login, logout and the boot gauge;
  - view and selection handlers, and the quiz overlay and its callbacks;
  - unit completion, the exit button and the lobby buttons;
  - the quiz-topic rule, what `renderContent` shows, and the export file name.
- `faculty.dfy` (`Faculty`): `components/FacultyDashboard.tsx`, covering
  - course creation and content upload with the optional assessment unit;
  - the course list's replace-by-id;
  - the student drill-down, the high-risk filter and the unit badges.
- `dashboard.dfy` (`StudentDashboard`): the local handlers of
  `components/Dashboard.tsx`: squad chat, meeting request, invite, modals and
  the avatar picker.
- `tutor.dfy` (`Tutor`): `components/AITutor.tsx`, covering
  - the initial message and the send guard;
  - the attachment prefix and the history snapshot;
  - the two halves of a send around the `await`;
  - file upload and dictation.
- `scenarios.dfy` (`Scenarios`): concrete runs on small fixtures, for example
  a whole three-question quiz from a unit page through to the course page
  with the unit ticked.

Inputs the program takes from the outside are parameters:
- The quiz generator's question list and the tutor generator's outcome.
- `Date.now()` ids.
- Clock readings.
- The answer to `window.confirm`.

The shared, mutated `Unit` object that `handleQuizComplete` sets `completed` on
is modelled as a by-id update. The update applies to the selected course and
to the course catalogue held in the controller state.

Behaviour of the code kept as written:
- The quiz topic is `selectedUnit ? selectedUnit.title : selectedCourse?.tags[0] || 'General'`
  (App.tsx:224). The conditional binds looser than `||`, so a selected unit
  with an empty title gives an empty topic (`Navigation.QuizTopicCases`).
- A unit page without a selected unit renders nothing (App.tsx:390;
  `Navigation.RenderFallbacks`).
- A course page without a selected course renders the student dashboard
  whatever the role (App.tsx:297; `Navigation.RenderFallbacks`).
- The default case of `renderContent` (App.tsx:472-473) cannot be reached:
  the view is a closed enumeration and every value has its own case.
- Logout resets the user, view, gauge, assistant and login inputs and leaves
  the course and unit selection and the quiz flag as they were (App.tsx:36-43;
  `Navigation.LogoutKeepsQuizMode`).
- The unit page's exit button sets only the view (App.tsx:395-400). The
  selected unit stays, so a "global" quiz started from the course page
  afterwards is about that unit (`Navigation.GlobalQuizAfterExitUsesUnit`).
- The boot step `p < 100 ? p + 2 : 100` (App.tsx:30) keeps the gauge within
  `[0, 100]` only for even values (99 steps to 101). Its invariant is
  therefore "even and within `[0, 100]`", which holds from 0 on.

## Model

| member | source | states |
|---|---|---|
| `QuizEngine.CountCorrect` | components/Quiz.tsx:37-40 | the running count over the first n questions never exceeds n |
| `QuizEngine.CountCorrectIsCardinality` | components/Quiz.tsx:37-40 | the count is the size of the set of indices whose stored answer equals the correct answer exactly; a missing answer never counts |
| `QuizEngine.CalculateScore` | components/Quiz.tsx:36-48 | the single counting pass returns total = number of questions, 0 <= score <= total, the score = the number of exactly matching answers, and the mastery tier of that score |
| `QuizEngine.ClassifyMatchesPercentage` | components/Quiz.tsx:42-45 | for a non-empty quiz the integer tiers agree with the exact percentage: Advanced iff above 80, Intermediate iff above 50 and at most 80, Beginner iff at most 50 |
| `QuizEngine.ScaleByPositive` | components/Quiz.tsx:42-45 | comparing a percentage with a threshold is the same as comparing both scaled by the positive question count |
| `QuizEngine.ClassifyMonotone` | components/Quiz.tsx:42-45 | a higher score never gives a lower tier |
| `QuizEngine.Classify` | components/Quiz.tsx:42-45 | full marks on a non-empty quiz are Advanced, no marks are Beginner, exactly 80 percent is Intermediate and exactly 50 percent is Beginner |
| `QuizEngine.ScoreOf` | components/Quiz.tsx:36-48 | the total is the number of questions, the score lies in [0, total], the tier is that of the score, full marks iff every question is answered correctly, zero iff none is |
| `QuizEngine.CountCorrectExtremes` | components/Quiz.tsx:37-40 | the count over the first n questions is n iff all of them are correct, and 0 iff none is |
| `QuizEngine.Start` | components/Quiz.tsx:14-18 | a mounted quiz is loading its topic |
| `QuizEngine.Loaded` | components/Quiz.tsx:20-29 | an empty generated list gives the failure screen; a non-empty one starts on question 0 with no answers, not submitted |
| `QuizEngine.Enabled` | components/Quiz.tsx:68-143 | for each control, exactly when it is offered: Return only on the failure screen, an option iff unsubmitted and listed, Previous iff not on the first question, Next iff unsubmitted, not last and answered, Submit iff unsubmitted, last and answered, Complete iff submitted |
| `QuizEngine.Step` | components/Quiz.tsx:31-57 | a result is reported exactly by Complete on a question card, and it is the score of the current answers with the session unchanged; a cancel is reported exactly by Cancel; Submit sets the lock and changes nothing else, every other control keeps the lock as it was; only option clicks touch the answers; topic and questions never change |
| `QuizEngine.StepPreservesValid` | components/Quiz.tsx:117-143 | every handler keeps the cursor within [0, n) and the answers keyed by existing questions |
| `QuizEngine.CursorClamped` | components/Quiz.tsx:118-137 | Previous moves back one except on the first question, where it stays; Next moves forward one except on the last, where it stays |
| `QuizEngine.SelectOnlyTouchesCurrent` | components/Quiz.tsx:31-34 | before submission selecting records the option for the current question only, keeping every other answer; after submission it is a no-op |
| `QuizEngine.SubmittedIsLocked` | components/Quiz.tsx:50-52 | once submitted no handler changes the answers or clears the submitted flag |
| `QuizEngine.EnabledStepPreservesReachable` | components/Quiz.tsx:126-138 | enabled controls keep the session well-formed and keep a truthy answer on the last question once submitted |
| `QuizEngine.GuardsOfNextAndSubmit` | components/Quiz.tsx:126-142 | Next is offered iff unsubmitted, before the last question and answered; Submit iff unsubmitted, on the last question and answered; never both; Complete iff submitted |
| `QuizEngine.EmptyGenerationFails` | components/Quiz.tsx:68-75 | an empty question list shows the failure screen whose only control is Return; no step from it reports a result |
| `QuizEngine.FinishReportsLockedScore` | components/Quiz.tsx:50-57 | after submission Complete reports the score of the locked answers over all questions, with a non-zero total, and changes nothing |
| `QuizEngine.Drive` | components/Quiz.tsx:92-143 | a run of clicks, with absent or disabled controls ignored, keeps the session well-formed and yields one signal per click |
| `QuizEngine.DriveHead` | components/Quiz.tsx:102-143 | a click on an absent or disabled control leaves the session as it is and reports nothing; an enabled click steps the session and reports the step's signal |
| `QuizEngine.DriveStep` | components/Quiz.tsx:102-143 | an enabled first click followed by a known run gives that run's end state, with the step's signal in front |
| `QuizEngine.DriveKeepsReachable` | components/Quiz.tsx:126-138 | every run from a reachable session ends in a reachable session |
| `QuizEngine.FailedNeverCompletes` | components/Quiz.tsx:68-75 | from the failure screen no run ever reports a result and the screen stays |
| `QuizEngine.CompletedRunsScoreAllQuestions` | components/Quiz.tsx:54-57 | any result a run reports has a total equal to the number of questions, which is non-zero, so the percentage never divides by zero |
| `Navigation.Initial` | App.tsx:12-24 | first load: nobody signed in, dashboard view, no selection, no quiz, gauge at zero, assistant shut, login inputs empty |
| `Navigation.BootStepBounded` | App.tsx:30 | a tick keeps the gauge even and within [0, 100], never lowers it, and raises it while below 100 |
| `Navigation.BootStep` | App.tsx:30 | a tick raises a gauge below 100, pins a gauge at or above 100 to 100, and passes 100 only from 99 |
| `Navigation.BootAfter` | App.tsx:26-34 | after k ticks from zero the gauge is min(2k, 100): fifty ticks reach exactly 100 and it stays there |
| `Navigation.BootTick` | App.tsx:27-34 | the gauge only moves while nobody is signed in, and nothing else changes |
| `Navigation.Login` | App.tsx:49-57 | the login buttons sign in the fixed account with no validation, changing nothing else |
| `Navigation.LoginOfferedAfterBoot` | App.tsx:26-34 | on the login screen the credentials show exactly when the gauge is at 100, which after k ticks from zero is from the fiftieth tick on |
| `Navigation.UpdateUser` | App.tsx:45-47 | the user record is replaced and nothing else changes |
| `Navigation.Logout` | App.tsx:36-43 | signs out, shows the dashboard view, zeroes the gauge, closes the assistant, clears the login inputs; selection and quiz flag are kept |
| `Navigation.LoginThenLogout` | App.tsx:36-57 | signing in and straight out again is the same as signing out |
| `Navigation.ToggleAssistant` | App.tsx:501 | the floating trigger flips the assistant and nothing else |
| `Navigation.CloseAssistant` | App.tsx:494 | the widget's close button shuts the assistant and nothing else |
| `Navigation.AssistantRoundTrip` | App.tsx:494-501 | two presses of the trigger undo each other, and closing a widget the trigger just opened restores the state |
| `Navigation.Navigate` | App.tsx:189-194 | shows the requested view and clears course, unit and quiz flag, keeping the session fields |
| `Navigation.SelectCourse` | App.tsx:196-199 | shows the course page of the chosen course; unit and quiz flag unchanged |
| `Navigation.SelectUnit` | App.tsx:201-204 | shows the unit page of the chosen unit; course and quiz flag unchanged |
| `Navigation.StartQuiz` | App.tsx:206-208 | raises the quiz overlay and nothing else |
| `Navigation.CancelQuiz` | App.tsx:226 | the quiz's cancel lowers the overlay and nothing else |
| `Navigation.MarkUnitCompleted` | App.tsx:211-213 | the course keeps its units in place, with exactly those of the given id ticked |
| `Navigation.MarkUnitCompletedMonotone` | App.tsx:211-213 | ticking a unit never unticks another, and ticks the one with that id |
| `Navigation.MarkInCatalogue` | App.tsx:211-213 | every catalogue entry gets the unit of that id ticked |
| `Navigation.CompleteQuiz` | App.tsx:210-218 | ticks the selected unit wherever it is listed, lowers the overlay, shows the course page, clears the unit and keeps the course; user, gauge, assistant and login inputs are untouched |
| `Navigation.BackToLobby` | App.tsx:252-253 | the lobby buttons show the dashboard view and leave the selection alone |
| `Navigation.OnQuizSignal` | App.tsx:223-226 | a reported result completes the quiz, a cancel lowers the overlay, anything else changes nothing |
| `Navigation.NoResultKeepsUnits` | App.tsx:210-226 | signals without a result never tick a unit or change the selection |
| `Navigation.ExitUnit` | App.tsx:395-400 | an uncompleted unit asks for confirmation and stays on refusal; otherwise the course page is shown; the unit is not cleared |
| `Navigation.QuizTopic` | App.tsx:224 | the topic is the unit title when a unit is selected; with no unit it is never empty and is either "General" or the course's first tag |
| `Navigation.Render` | App.tsx:79-474 | the login card shows iff nobody is signed in, with credentials iff the gauge is at 100; the quiz shows iff signed in with the overlay on; otherwise the tutor page iff the tutor view, analytics iff the analytics view, a course or unit page iff that view with a selection; the faculty home iff a faculty user is on the dashboard view; the student home iff a non-faculty user is on the dashboard view or the course view has no course |
| `Navigation.ExportFilename` | App.tsx:67-72 | a name exists iff a unit is selected; it is the title with every white-space run replaced by one underscore, followed by `_Notes.txt`, so it ends in `_Notes.txt` and holds no white space |
| `Navigation.ExportFilenamePlainTitle` | App.tsx:72 | for a title without white space the name is the title followed by `_Notes.txt` |
| `Navigation.NavigateForgetsSelection` | App.tsx:189-194 | navigating gives the same state whatever the prior view, selection and quiz flag, and navigating twice is navigating once |
| `Navigation.SelectShowsPage` | App.tsx:196-204 | choosing a course or a unit puts its page on screen |
| `Navigation.QuizOverlay` | App.tsx:220-229 | with the overlay on the quiz hides every view; starting then cancelling restores the state and the screen |
| `Navigation.QuizTopicCases` | App.tsx:224 | the topic is the unit title when a unit is selected; otherwise the course's first tag when it is non-empty; otherwise "General"; it is empty exactly for a unit with an empty title |
| `Navigation.CompleteShowsCompletedUnit` | App.tsx:210-218 | completing from a unit page lands on that course's page, with the unit ticked, ticked units kept and other units untouched |
| `Navigation.CompletionSurvivesReentry` | App.tsx:210-218 | after completing a unit, going home and opening any catalogue course that lists the unit shows that course with the unit completed |
| `Navigation.RenderFallbacks` | App.tsx:231-390 | a course page without a course shows the student home, a unit page without a unit shows nothing, the dashboard view shows the faculty home iff the user is faculty and the student home otherwise, and nothing is shown only for a unit page without a unit |
| `Navigation.LobbyKeepsSelection` | App.tsx:318-319 | after the lobby button the course page shows the same course again |
| `Navigation.ExitConfirmationOnlyWhenIncomplete` | App.tsx:395-400 | the confirmation answer matters only for an uncompleted unit; a refusal keeps the unit page |
| `Navigation.GlobalQuizAfterExitUsesUnit` | App.tsx:380-400 | after leaving a unit, the course page's quiz is about that unit and completing it ticks that unit |
| `Navigation.LogoutKeepsQuizMode` | App.tsx:36-43 | after logout the login card shows without credentials; signing in again brings back a raised quiz overlay |
| `Faculty.Initial` | components/FacultyDashboard.tsx:53-72 | the dashboard starts on the given course list with nothing selected, modals shut, the AI switch off, the creation form empty and the student tab at the course list |
| `Faculty.OpenCourse` | components/FacultyDashboard.tsx:77-79 | opens the course and nothing else |
| `Faculty.BackToCourses` | components/FacultyDashboard.tsx:80-82 | closes the course and nothing else |
| `Faculty.CourseTabRoundTrip` | components/FacultyDashboard.tsx:77-82 | opening a course and going back restores the grid; opening from anywhere is the same as opening from the grid |
| `Faculty.NewCourse` | components/FacultyDashboard.tsx:87-97 | the new course takes code and title from the form and the instructor's name, with zero progress, tags New and Pending, and no units |
| `Faculty.CreateCourse` | components/FacultyDashboard.tsx:84-102 | with either field empty nothing happens; otherwise exactly one course is appended after the unchanged list, the modal closes and both fields clear |
| `Faculty.CreateOnFreshDashboardIsNoOp` | components/FacultyDashboard.tsx:59-86 | on a fresh dashboard the creation form is empty, so CREATE changes nothing |
| `Faculty.ContentUnit` | components/FacultyDashboard.tsx:108-115 | the content unit is uncompleted and titled after the upload kind |
| `Faculty.AssessmentUnit` | components/FacultyDashboard.tsx:121-128 | the assessment unit is uncompleted and titled "AI Assessment: " and the kind |
| `Faculty.UploadedUnits` | components/FacultyDashboard.tsx:106-130 | one content unit, then an assessment unit exactly when the AI switch is on, each with its own clock stamp, none completed |
| `Faculty.ReplaceById` | components/FacultyDashboard.tsx:137 | same length; every entry with the updated id becomes the update, every other entry is kept |
| `Faculty.ReplaceByIdProperties` | components/FacultyDashboard.tsx:137 | the update appears when its id is listed, an unlisted id changes nothing, and replacing twice is replacing once |
| `Faculty.UploadContent` | components/FacultyDashboard.tsx:104-142 | without an open course nothing happens; otherwise the units are appended, the list entry is replaced by id, the modal closes and the switch resets |
| `Faculty.UploadAppendsUnits` | components/FacultyDashboard.tsx:104-140 | the old units stay as a prefix, one or two uncompleted units follow, the last being an assessment with the switch on; other courses are untouched |
| `Faculty.AssessmentUnitIsBadged` | components/FacultyDashboard.tsx:354-374 | the generated assessment unit carries the assessment badge and not the notes badge |
| `Faculty.IsAssessment` | components/FacultyDashboard.tsx:354 | a unit is shown as generated assessment iff "Assessment" occurs somewhere in its title, which then has at least ten characters |
| `Faculty.ShowsNotesBadge` | components/FacultyDashboard.tsx:365-374 | the notes badge needs notes and no assessment title; it never shows together with the AI badge, and a unit with notes shows exactly one of the two |
| `Faculty.SelectStudentCourse` | components/FacultyDashboard.tsx:145-148 | choosing a course shows its roster |
| `Faculty.BackToStudentCourses` | components/FacultyDashboard.tsx:149-152 | back from the roster shows the course list with the course cleared |
| `Faculty.SelectStudent` | components/FacultyDashboard.tsx:153-156 | choosing a student shows the detail |
| `Faculty.BackToRoster` | components/FacultyDashboard.tsx:157-160 | back from the detail shows the roster with the student cleared |
| `Faculty.DrillDownRoundTrips` | components/FacultyDashboard.tsx:145-160 | each back button undoes the choice made on the level above it |
| `Faculty.HighRisk` | components/FacultyDashboard.tsx:74 | no longer than the roster, and holding exactly the roster entries whose risk level is High |
| `Faculty.HighRiskMultiplicity` | components/FacultyDashboard.tsx:74 | every High entry is kept as many times as the roster lists it, every other entry is dropped |
| `Faculty.HighRiskKeepsOrder` | components/FacultyDashboard.tsx:74 | the high-risk list keeps roster order, and is the whole roster iff everyone is High |
| `StudentDashboard.Initial` | components/Dashboard.tsx:20-37 | no modal, empty chat, meeting and invite fields, and exactly the six seeded messages |
| `StudentDashboard.SendMessage` | components/Dashboard.tsx:39-48 | blank input is ignored; otherwise the untrimmed input is appended once under the user's name and the input clears |
| `StudentDashboard.SendKeepsHistory` | components/Dashboard.tsx:39-48 | earlier messages stay in order, and one is added iff the input is not blank |
| `StudentDashboard.RequestMeeting` | components/Dashboard.tsx:50-59 | with a field missing the form stays as it is; otherwise the modal closes and both fields clear, with the chat and the invite fields untouched |
| `StudentDashboard.MeetingRequestNotRepeated` | components/Dashboard.tsx:50-59 | a second request right after a first changes nothing |
| `StudentDashboard.OpenModal` | components/Dashboard.tsx:416 | opens the chosen modal and nothing else |
| `StudentDashboard.CloseModal` | components/Dashboard.tsx:468 | the close button shuts the modal and nothing else |
| `StudentDashboard.ModalRoundTrip` | components/Dashboard.tsx:416-468 | closing a modal just opened from the bare dashboard returns to it; closing twice is closing once |
| `StudentDashboard.InviteHandshake` | components/Dashboard.tsx:232 | the handshake closes the modal and keeps the typed key |
| `StudentDashboard.InviteAlwaysDenied` | components/Dashboard.tsx:232 | whatever key is typed the handshake is the same as closing the modal |
| `StudentDashboard.ChooseAvatar` | components/Dashboard.tsx:321 | the user changes in the avatar only |
| `StudentDashboard.AvatarChoice` | components/Dashboard.tsx:321-322 | after a choice exactly the chosen url is highlighted, and choosing the old avatar restores the user |
| `Tutor.Initial` | components/AITutor.tsx:15-25 | the chat starts with exactly one model message carrying the greeting; no input, no attachment, not loading |
| `Tutor.CanSend` | components/AITutor.tsx:37-39 | sending is possible iff the input is not all white space or a file is attached, and no reply is pending |
| `Tutor.OutgoingText` | components/AITutor.tsx:41-44 | without an attachment the input is sent unchanged; with one it is prefixed by the attachment marker |
| `Tutor.OutgoingTextRecoversParts` | components/AITutor.tsx:41-44 | the attachment name and the input can be read back from the sent text |
| `Tutor.History` | components/AITutor.tsx:58 | the history has one role-and-text entry per message, in order |
| `Tutor.BeginSend` | components/AITutor.tsx:37-59 | a blocked send changes nothing and asks nothing; otherwise the user message is appended, input and attachment clear, loading is set, and the history from before the append is sent |
| `Tutor.EndSend` | components/AITutor.tsx:61-69 | the reply is appended as one model message after all others and loading drops |
| `Tutor.ReplyText` | services/geminiService.ts:39-43 | the shown reply is never empty and is the generated text when that is non-empty |
| `Tutor.SendRoundTrip` | components/AITutor.tsx:37-70 | a whole send adds the user message then one non-empty reply, keeps earlier messages, blocks a second send while pending and ends idle |
| `Tutor.FileUpload` | components/AITutor.tsx:72-78 | a chosen file becomes a document attachment named after it; no file changes nothing |
| `Tutor.RemoveAttachment` | components/AITutor.tsx:195 | the chip's remove button clears the attachment and nothing else |
| `Tutor.AttachmentRoundTrip` | components/AITutor.tsx:72-78 | removing a freshly attached file restores the panel; no file changes nothing; a blank input without attachment cannot be sent |
| `Tutor.Dictate` | components/AITutor.tsx:86-88 | the microphone fills the input with the canned question and nothing else |
| `Tutor.AttachmentAloneSends` | components/AITutor.tsx:38-44 | an attachment alone is enough to send; the sent text is then the prefix only |
| `Text.TrimStart` | components/Dashboard.tsx:40 | the result is the longest suffix not starting with white space |
| `Text.IsSpace` | App.tsx:72 | the `\s` class: the ECMAScript white-space and line-terminator code points |
| `Text.SpaceClass` | App.tsx:72 | space, tab, line feed and carriage return are white space; letters, digits, `_` and `:` are not |
| `Text.TrimEnd` | components/AITutor.tsx:38 | the result is the longest prefix not ending with white space |
| `Text.Trim` | components/Dashboard.tsx:40 | the trimmed text is a slice of the input with only white space around it, no longer than the input, and neither starts nor ends with white space |
| `Text.TrimEmptyIffBlank` | components/Dashboard.tsx:40 | the trimmed input is empty exactly when the input is all white space |
| `Text.ReplaceSpaceRuns` | App.tsx:72 | the rewritten title holds no white space and is no longer than the title |
| `Text.ReplaceSpaceRunsKeepsSpaceFree` | App.tsx:72 | a title without white space is left as it is |
| `Text.ReplaceSpaceRunsIdempotent` | App.tsx:72 | rewriting twice is rewriting once |
| `Text.ReplaceSpaceRunsSplit` | App.tsx:72 | one white-space run between a part ending visibly and a part starting visibly becomes exactly one underscore, the parts rewritten on their own |
| `Text.TrimStartOfBlank` | components/Dashboard.tsx:40 | trimming the start of blank text followed by a visibly starting string leaves that string |
| `Text.Contains` | components/FacultyDashboard.tsx:354 | `includes` holds iff the pattern occurs at some index; the empty pattern occurs in every string, a longer one in none, and a prefix always |
| `Scenarios.ScoringExamples` | components/Quiz.tsx:36-48 | three correct of three is Advanced, two is Intermediate, one or none is Beginner |
| `Scenarios.MasteryBoundaries` | components/Quiz.tsx:42-45 | exactly 80 percent is Intermediate, exactly 50 percent is Beginner |
| `Scenarios.WholeQuizFromUnitPage` | App.tsx:210-229 | answering B, A, C and completing reports 3/3 Advanced, and the course page then shows the first unit ticked and the second not |
| `Scenarios.ExportFilenameSpacedTitle` | App.tsx:72 | the unit title "Unit 1: Network Optimization" downloads as `Unit_1:_Network_Optimization_Notes.txt` |
| `Scenarios.GenerationFailureCompletesNothing` | components/Quiz.tsx:68-75 | after an empty generation no click sequence ticks any unit |
| `Scenarios.UnitPageWithoutUnit` | App.tsx:389-390 | navigating home clears the unit, so a unit view then shows nothing |
| `Scenarios.RosterHasOneHighRisk` | components/FacultyDashboard.tsx:74 | a four-student roster with one High student yields just that student |
| `Scenarios.ContentTitleNotAssessment` | components/FacultyDashboard.tsx:108-115 | an uploaded content unit titled "New <kind> Module" is never badged as an assessment unless the kind itself contains "As" (the title test at components/FacultyDashboard.tsx:354 looks for "Assessment") |
| `Scenarios.UploadedContentIsNotAssessment` | components/FacultyDashboard.tsx:842-844 | the content units of the three upload buttons ("New PDF DOCUMENT Module", "New VIDEO FEED Module", "New IMAGE ASSET Module") get no assessment badge and show the notes badge |

## Left out

- The Gemini service calls, their JSON parsing and the network. The quiz generator is a question list given to `QuizEngine.Loaded`. The tutor generator is a `Tutor.ReplyOutcome`. Only the fallback texts and the empty-list failure are modelled.
- Floating point: the percentage is replaced by the cross-multiplied integer comparison, tied back to exact reals by `QuizEngine.ClassifyMatchesPercentage`.
- GPA and attendance arithmetic in the faculty modals, `Math.random` and `simulateUploadImage`: randomness and floating point.
- `Date.now()` ids, `new Date()` timestamps and `toLocaleTimeString`: these are parameters.
- `alert`: it has no effect on state.
- `window.confirm`: a boolean parameter of `Navigation.ExitUnit`.
- The `setInterval` timer and its cleanup: only its step (`Navigation.BootTick`) is modelled.
- The Blob and anchor download around the export name, the scroll helpers and the scroll-to-bottom effect: DOM only.
- `await` ordering, late replies after unmount, and the quiz refetch when the topic prop changes: a send is two explicit phases, and a quiz is one session per topic.
- All JSX and styling. `components/CyberComponents.tsx`, `components/Layout.tsx`, `components/Analytics.tsx` and the mock data of `constants.ts` are not part of this model. Small fixtures in the same style are used in `Scenarios`.
- Input setters of the login form, the chat and meeting fields, the tab switches and the faculty modal toggles (gradebook, attendance, risk, profile, add-course, upload): each is a one-field update.
- The `marksHistory` and GPA fields of users and roster entries: they are only displayed.
- The render's `default` case: it is unreachable with the closed view enumeration.
- `Tutor.Dictate`: states the input and the frame, not that sending becomes possible, because the canned text is too long for the verifier to inspect character by character.

=== FILE: dashboard.dfy ===
/** The local handlers of the student home, `components/Dashboard.tsx`: the
    squad chat, the meeting request form, the module invite form, the modal
    switch and the avatar picker. */
module StudentDashboard {
  import opened Types
  import Text

  datatype Modal = NoModal | Completion | Tasks | Attendance | Store | Profile | Invite | Settings | Meeting

  /** One chat line; `isSystem` marks the announcements of the initial feed. */
  datatype BoardMessage = BoardMessage(user: string, msg: string, time: string, isSystem: bool)

  datatype DashboardState = DashboardState(
    modal: Modal,
    chatInput: string,
    inviteId: string,
    invitePass: string,
    meetingReason: string,
    facultyId: string,
    messages: seq<BoardMessage>)

  /** The chat feed the component starts with. */
  const InitialMessages: seq<BoardMessage> := [
    BoardMessage("Neo_X", "Anyone finished the SCM module?", "10:42", false),
    BoardMessage("Trinity_MBA", "Yeah, the drone routing algo is tough.", "10:43", false),
    BoardMessage("SYSTEM", "New Material: Uploaded \"Adv_Game_Theory.pdf\" to Store.", "10:44", true),
    BoardMessage("Cipher", "LFG! Marketing Analytics raid starting.", "10:45", false),
    BoardMessage("SYSTEM", "Study Alert: Quiz on \"Neural Marketing\" starts in 10m.", "10:45", true),
    BoardMessage("Rohan", "Joining in 5 mins.", "10:46", false)
  ]

  function Initial(): (s: DashboardState)
    ensures s.modal == NoModal && s.chatInput == "" && s.messages == InitialMessages && |s.messages| == 6
    ensures s.meetingReason == "" && s.facultyId == "" && s.inviteId == "" && s.invitePass == ""
  {
    DashboardState(NoModal, "", "", "", "", "", InitialMessages)
  }

  /** `handleSendMessage`: a blank input (all white space) is ignored;
      otherwise the untrimmed input is appended under the user's name with
      the given clock reading, and the input is cleared. */
  function SendMessage(s: DashboardState, userName: string, time: string): (s': DashboardState)
    ensures Text.IsBlank(s.chatInput) ==> s' == s
    ensures !Text.IsBlank(s.chatInput) ==>
      && s'.messages == s.messages + [BoardMessage(userName, s.chatInput, time, false)]
      && s'.chatInput == ""
      && s'.(messages := s.messages, chatInput := s.chatInput) == s
  {
    Text.TrimEmptyIffBlank(s.chatInput);
    if Text.Trim(s.chatInput) == "" then s
    else s.(messages := s.messages + [BoardMessage(userName, s.chatInput, time, false)], chatInput := "")
  }

  /** Sending never loses or reorders earlier messages and adds at most one. */
  lemma SendKeepsHistory(s: DashboardState, userName: string, time: string)
    ensures var s' := SendMessage(s, userName, time);
      && |s.messages| <= |s'.messages| <= |s.messages| + 1
      && s'.messages[..|s.messages|] == s.messages
      && (|s'.messages| == |s.messages| + 1 <==> !Text.IsBlank(s.chatInput))
  {
    var s' := SendMessage(s, userName, time);
    if !Text.IsBlank(s.chatInput) {
      assert s'.messages[..|s.messages|] == s.messages;
    }
  }

  /** `handleRequestMeeting`: with a faculty id and a reason the request
      closes the modal and clears both fields; with either missing the form
      stays as it is (the notices are alerts). */
  function RequestMeeting(s: DashboardState): (s': DashboardState)
    ensures s.facultyId == "" || s.meetingReason == "" ==> s' == s
    ensures s.facultyId != "" && s.meetingReason != "" ==>
      && s'.modal == NoModal && s'.meetingReason == "" && s'.facultyId == ""
      && s'.messages == s.messages && s'.chatInput == s.chatInput
      && s'.inviteId == s.inviteId && s'.invitePass == s.invitePass
  {
    if s.facultyId == "" || s.meetingReason == "" then s
    else s.(modal := NoModal, meetingReason := "", facultyId := "")
  }

  /** A valid request cannot be sent twice: after it the form is empty, so
      pressing again changes nothing. */
  lemma MeetingRequestNotRepeated(s: DashboardState)
    ensures RequestMeeting(RequestMeeting(s)) == RequestMeeting(s)
  {
  }

  /** Opening a modal, closing it with its close button, and the invite
      handshake, which always denies access and closes the modal. */
  function OpenModal(s: DashboardState, m: Modal): (s': DashboardState)
    ensures s'.modal == m && s'.(modal := s.modal) == s
  {
    s.(modal := m)
  }

  function CloseModal(s: DashboardState): (s': DashboardState)
    ensures s'.modal == NoModal && s'.(modal := s.modal) == s
  {
    s.(modal := NoModal)
  }

  /** Closing a modal just opened from the bare dashboard returns to it. */
  lemma ModalRoundTrip(s: DashboardState, m: Modal)
    ensures s.modal == NoModal ==> CloseModal(OpenModal(s, m)) == s
    ensures CloseModal(CloseModal(s)) == CloseModal(s)
  {
  }

  function InviteHandshake(s: DashboardState): (s': DashboardState)
    ensures s'.modal == NoModal
    ensures s'.inviteId == s.inviteId && s'.invitePass == s.invitePass
    ensures s'.(modal := s.modal) == s
  {
    s.(modal := NoModal)
  }

  /** Whatever was typed into the invite form, the handshake has the same
      effect as closing the modal: no key is ever accepted. */
  lemma InviteAlwaysDenied(s: DashboardState, id: string, pass: string)
    ensures InviteHandshake(s.(inviteId := id, invitePass := pass)).modal == NoModal
    ensures InviteHandshake(s) == CloseModal(s)
  {
  }

  /** The avatar picker: the chosen variant's url becomes the user's avatar. */
  function ChooseAvatar(u: User, url: string): (u': User)
    ensures u'.avatar == url && u'.(avatar := u.avatar) == u
  {
    u.(avatar := url)
  }

  /** A variant is highlighted when it is the user's current avatar. */
  predicate Highlighted(u: User, url: string) {
    u.avatar == url
  }

  /** After choosing a variant exactly the variants with its url are
      highlighted, and choosing back the old avatar restores the user. */
  lemma AvatarChoice(u: User, url: string, other: string)
    ensures Highlighted(ChooseAvatar(u, url), url)
    ensures Highlighted(ChooseAvatar(u, url), other) <==> other == url
    ensures ChooseAvatar(ChooseAvatar(u, url), u.avatar) == u
  {
  }
}

=== FILE: faculty.dfy ===
/** The state behind `components/FacultyDashboard.tsx`: the locally edited
    course list, course creation, content upload with an optional generated
    assessment unit, the three-level student drill-down and the high-risk
    roster filter. */
module Faculty {
  import opened Types
  import Text

  datatype StudentLevel = CourseSelect | Roster | Detail

  datatype FacultyState = FacultyState(
    courses: seq<Course>,
    selectedCourse: Option<Course>,
    showAddCourseModal: bool,
    newCourseName: string,
    newCourseId: string,
    showUploadModal: bool,
    generateAiQuiz: bool,
    studentLevel: StudentLevel,
    studentSelectedCourse: Option<Course>,
    viewingStudent: Option<StudentSummary>)

  /** The dashboard as mounted, over the initial course list. */
  function Initial(courses: seq<Course>): (s: FacultyState)
    ensures s.courses == courses && s.selectedCourse.None?
    ensures s.studentLevel == CourseSelect && s.studentSelectedCourse.None? && s.viewingStudent.None?
    ensures !s.showAddCourseModal && !s.showUploadModal && !s.generateAiQuiz
    ensures s.newCourseName == "" && s.newCourseId == ""
  {
    FacultyState(courses, None, false, "", "", false, false, CourseSelect, None, None)
  }

  /** On a fresh dashboard the creation form is empty, so creating does nothing. */
  lemma CreateOnFreshDashboardIsNoOp(courses: seq<Course>, instructor: string, stamp: string)
    ensures CreateCourse(Initial(courses), instructor, stamp) == Initial(courses)
  {
  }

  // -------------------------------------------------------------- course tab

  /** Opening a course card and the back arrow of the course tab. */
  function OpenCourse(s: FacultyState, c: Course): (s': FacultyState)
    ensures s'.selectedCourse == Some(c) && s'.(selectedCourse := s.selectedCourse) == s
  {
    s.(selectedCourse := Some(c))
  }

  function BackToCourses(s: FacultyState): (s': FacultyState)
    ensures s'.selectedCourse.None? && s'.(selectedCourse := s.selectedCourse) == s
  {
    s.(selectedCourse := None)
  }

  /** Opening a course and going back returns to the course grid unchanged;
      opening a course from anywhere gives the same state as from the grid. */
  lemma CourseTabRoundTrip(s: FacultyState, c: Course)
    ensures s.selectedCourse.None? ==> BackToCourses(OpenCourse(s, c)) == s
    ensures OpenCourse(BackToCourses(s), c) == OpenCourse(s, c)
  {
  }

  const NewCourseThumbnail: string :=
    "https://images.unsplash.com/photo-1518770660439-4636190af475?auto=format&fit=crop&q=80&w=800"
  const NewCourseDescription: string := "New course stream initialized. Awaiting content upload."

  /** The course built from the creation form; `stamp` stands for the
      `Date.now()` text that makes its id. */
  function NewCourse(name: string, code: string, instructor: string, stamp: string): (c: Course)
    ensures c.code == code && c.title == name && c.instructor == instructor
    ensures c.progress == 0 && c.tags == ["New", "Pending"] && c.units == []
  {
    Course("c-new-" + stamp, code, name, instructor, 0, NewCourseThumbnail,
           ["New", "Pending"], NewCourseDescription, [])
  }

  /** `handleCreateCourse`: with both fields filled, appends the new course,
      closes the modal and clears the fields; otherwise does nothing. */
  function CreateCourse(s: FacultyState, instructor: string, stamp: string): (s': FacultyState)
    ensures s.newCourseName == "" || s.newCourseId == "" ==> s' == s
    ensures s.newCourseName != "" && s.newCourseId != "" ==>
      && |s'.courses| == |s.courses| + 1
      && s'.courses[..|s.courses|] == s.courses
      && s'.courses[|s.courses|] == NewCourse(s.newCourseName, s.newCourseId, instructor, stamp)
      && !s'.showAddCourseModal && s'.newCourseName == "" && s'.newCourseId == ""
      && s'.(courses := s.courses, showAddCourseModal := s.showAddCourseModal,
             newCourseName := s.newCourseName, newCourseId := s.newCourseId) == s
  {
    if s.newCourseName == "" || s.newCourseId == "" then s
    else
      s.(courses := s.courses + [NewCourse(s.newCourseName, s.newCourseId, instructor, stamp)],
         showAddCourseModal := false, newCourseName := "", newCourseId := "")
  }

  /** The content unit added by an upload of kind `kind`. */
  function ContentUnit(kind: string, stamp: string): (u: Unit)
    ensures !u.completed && u.title == "New " + kind + " Module"
  {
    Unit("u-" + stamp, "New " + kind + " Module", "Uploaded " + kind + " content via Faculty CMS.",
         "", "Content processing...", false)
  }

  /** The generated assessment unit added when the AI switch is on. */
  function AssessmentUnit(kind: string, stamp: string): (u: Unit)
    ensures !u.completed && u.title == "AI Assessment: " + kind
  {
    Unit("u-quiz-" + stamp, "AI Assessment: " + kind,
         "Auto-generated quiz based on uploaded " + kind + " material.", "",
         "Assessment Mode Enabled. 10 Questions generated based on content analysis.", false)
  }

  /** The units an upload appends: the content unit, then the assessment
      unit exactly when the switch is on. Each unit reads the clock on its
      own, so each has its own stamp. */
  function UploadedUnits(kind: string, contentStamp: string, quizStamp: string, withQuiz: bool): (us: seq<Unit>)
    ensures |us| == (if withQuiz then 2 else 1)
    ensures us[0] == ContentUnit(kind, contentStamp)
    ensures withQuiz ==> us[1] == AssessmentUnit(kind, quizStamp)
    ensures forall i :: 0 <= i < |us| ==> !us[i].completed
  {
    if withQuiz then [ContentUnit(kind, contentStamp), AssessmentUnit(kind, quizStamp)]
    else [ContentUnit(kind, contentStamp)]
  }

  /** `prev.map(c => c.id === updated.id ? updated : c)`. */
  function ReplaceById(cs: seq<Course>, updated: Course): (cs': seq<Course>)
    ensures |cs'| == |cs|
    ensures forall i :: 0 <= i < |cs| ==> cs'[i] == (if cs[i].id == updated.id then updated else cs[i])
  {
    seq(|cs|, i requires 0 <= i < |cs| => if cs[i].id == updated.id then updated else cs[i])
  }

  /** Replacing by id puts `updated` wherever its id occurs, touches nothing
      else, and replacing again with the same course changes nothing. */
  lemma ReplaceByIdProperties(cs: seq<Course>, updated: Course)
    ensures (exists i :: 0 <= i < |cs| && cs[i].id == updated.id) ==> updated in ReplaceById(cs, updated)
    ensures (forall i :: 0 <= i < |cs| ==> cs[i].id != updated.id) ==> ReplaceById(cs, updated) == cs
    ensures ReplaceById(ReplaceById(cs, updated), updated) == ReplaceById(cs, updated)
  {
    if exists i :: 0 <= i < |cs| && cs[i].id == updated.id {
      var i :| 0 <= i < |cs| && cs[i].id == updated.id;
      assert ReplaceById(cs, updated)[i] == updated;
    }
  }

  /** `handleUploadContent`: without an open course nothing happens;
      otherwise the course gets the uploaded units after its own, the list
      entry with the same id is replaced, the modal closes and the AI switch
      is reset. */
  function UploadContent(s: FacultyState, kind: string, contentStamp: string, quizStamp: string): (s': FacultyState)
    ensures s.selectedCourse.None? ==> s' == s
    ensures s.selectedCourse.Some? ==>
      var c := s.selectedCourse.value;
      var added := UploadedUnits(kind, contentStamp, quizStamp, s.generateAiQuiz);
      && s'.selectedCourse == Some(c.(units := c.units + added))
      && s'.courses == ReplaceById(s.courses, c.(units := c.units + added))
      && !s'.showUploadModal && !s'.generateAiQuiz
      && s'.(selectedCourse := s.selectedCourse, courses := s.courses,
             showUploadModal := s.showUploadModal, generateAiQuiz := s.generateAiQuiz) == s
  {
    match s.selectedCourse
    case None => s
    case Some(c) =>
      var updated := c.(units := c.units + UploadedUnits(kind, contentStamp, quizStamp, s.generateAiQuiz));
      s.(selectedCourse := Some(updated), courses := ReplaceById(s.courses, updated),
         showUploadModal := false, generateAiQuiz := false)
  }

  /** An upload keeps the open course's units as a prefix and adds one unit,
      or two with the switch on, none of them completed; the list keeps its
      length and every course with another id. */
  lemma UploadAppendsUnits(s: FacultyState, kind: string, contentStamp: string, quizStamp: string)
    requires s.selectedCourse.Some?
    ensures var s' := UploadContent(s, kind, contentStamp, quizStamp);
      var old_ := s.selectedCourse.value.units;
      var new_ := s'.selectedCourse.value.units;
      && |new_| == |old_| + (if s.generateAiQuiz then 2 else 1)
      && new_[..|old_|] == old_
      && (forall i :: |old_| <= i < |new_| ==> !new_[i].completed)
      && (s.generateAiQuiz ==> IsAssessment(new_[|new_| - 1]))
      && |s'.courses| == |s.courses|
      && (forall i :: 0 <= i < |s.courses| && s.courses[i].id != s.selectedCourse.value.id ==>
            s'.courses[i] == s.courses[i])
  {
    var c := s.selectedCourse.value;
    var added := UploadedUnits(kind, contentStamp, quizStamp, s.generateAiQuiz);
    assert (c.units + added)[..|c.units|] == c.units;
    if s.generateAiQuiz {
      AssessmentUnitIsBadged(kind, quizStamp);
    }
  }

  // ---------------------------------------------------------- unit badges

  /** A unit is shown as generated assessment (robot icon and AI badge) iff
      "Assessment" occurs somewhere in its title. */
  function IsAssessment(u: Unit): (b: bool)
    ensures b ==> |u.title| >= 10
    ensures b ==> exists i :: 0 <= i && i + 10 <= |u.title| && Text.OccursAt(u.title, "Assessment", i)
    ensures forall i :: 0 <= i && i + 10 <= |u.title| && Text.OccursAt(u.title, "Assessment", i) ==> b
  {
    Text.Contains(u.title, "Assessment")
  }

  /** The notes badge: notes present and not an assessment unit. The notes
      badge and the AI badge are never shown together, and a unit with notes
      shows exactly one of them. */
  function ShowsNotesBadge(u: Unit): (b: bool)
    ensures b ==> u.notes != "" && !IsAssessment(u)
    ensures IsAssessment(u) ==> !b
    ensures u.notes != "" ==> (b <==> !IsAssessment(u))
  {
    u.notes != "" && !IsAssessment(u)
  }

  /** The generated assessment unit always carries the assessment badge and
      never the notes badge. */
  lemma AssessmentUnitIsBadged(kind: string, stamp: string)
    ensures IsAssessment(AssessmentUnit(kind, stamp))
    ensures !ShowsNotesBadge(AssessmentUnit(kind, stamp))
  {
    var t := "AI " + ("Assessment" + (": " + kind));
    assert "AI Assessment: " + kind == t;
    assert t[3..3 + 10] == "Assessment";
    assert Text.OccursAt(t, "Assessment", 3);
  }

  // ----------------------------------------------------------- student tab

  /** The drill-down handlers: course → roster → student, and back. */
  function SelectStudentCourse(s: FacultyState, c: Course): (s': FacultyState)
    ensures s'.studentLevel == Roster && s'.studentSelectedCourse == Some(c)
    ensures s'.(studentLevel := s.studentLevel, studentSelectedCourse := s.studentSelectedCourse) == s
  {
    s.(studentSelectedCourse := Some(c), studentLevel := Roster)
  }

  function BackToStudentCourses(s: FacultyState): (s': FacultyState)
    ensures s'.studentLevel == CourseSelect && s'.studentSelectedCourse.None?
    ensures s'.(studentLevel := s.studentLevel, studentSelectedCourse := s.studentSelectedCourse) == s
  {
    s.(studentSelectedCourse := None, studentLevel := CourseSelect)
  }

  function SelectStudent(s: FacultyState, st: StudentSummary): (s': FacultyState)
    ensures s'.studentLevel == Detail && s'.viewingStudent == Some(st)
    ensures s'.(studentLevel := s.studentLevel, viewingStudent := s.viewingStudent) == s
  {
    s.(viewingStudent := Some(st), studentLevel := Detail)
  }

  function BackToRoster(s: FacultyState): (s': FacultyState)
    ensures s'.studentLevel == Roster && s'.viewingStudent.None?
    ensures s'.(studentLevel := s.studentLevel, viewingStudent := s.viewingStudent) == s
  {
    s.(viewingStudent := None, studentLevel := Roster)
  }

  /** Each back button undoes the matching choice from the level above it:
      from the course list, choosing a course and going back returns to the
      course list with no course; from the roster, choosing a student and
      going back returns to the roster with no student. */
  lemma DrillDownRoundTrips(s: FacultyState, c: Course, st: StudentSummary)
    ensures s.studentLevel == CourseSelect && s.studentSelectedCourse.None? ==>
      BackToStudentCourses(SelectStudentCourse(s, c)) == s
    ensures s.studentLevel == Roster && s.viewingStudent.None? ==>
      BackToRoster(SelectStudent(s, st)) == s
    ensures SelectStudent(SelectStudentCourse(s, c), st).studentSelectedCourse == Some(c)
  {
  }

  // ------------------------------------------------------------- risk list

  /** `roster.filter(s => s.riskLevel === 'High')`. */
  function HighRisk(roster: seq<StudentSummary>): (r: seq<StudentSummary>)
    ensures |r| <= |roster|
    ensures forall i :: 0 <= i < |r| ==> r[i].riskLevel == High
    ensures forall x :: x in r <==> x in roster && x.riskLevel == High
  {
    if roster == [] then []
    else if roster[0].riskLevel == High then [roster[0]] + HighRisk(roster[1..])
    else HighRisk(roster[1..])
  }

  /** The filter keeps every high-risk entry as often as the roster lists it
      and drops every other entry. */
  lemma {:induction false} HighRiskMultiplicity(roster: seq<StudentSummary>, x: StudentSummary)
    ensures multiset(HighRisk(roster))[x] == (if x.riskLevel == High then multiset(roster)[x] else 0)
    decreases |roster|
  {
    if roster != [] {
      assert roster == [roster[0]] + roster[1..];
      HighRiskMultiplicity(roster[1..], x);
    }
  }

  /** `sub` is `s` with some entries left out, the rest in their order. */
  predicate IsSubsequence(sub: seq<StudentSummary>, s: seq<StudentSummary>)
    decreases |s|
  {
    if sub == [] then true
    else if s == [] then false
    else if sub[0] == s[0] then IsSubsequence(sub[1..], s[1..])
    else IsSubsequence(sub, s[1..])
  }

  /** The high-risk list keeps roster order, and it is the whole roster
      exactly when every student is high risk. */
  lemma {:induction false} HighRiskKeepsOrder(roster: seq<StudentSummary>)
    ensures IsSubsequence(HighRisk(roster), roster)
    ensures HighRisk(roster) == roster <==> forall i :: 0 <= i < |roster| ==> roster[i].riskLevel == High
    decreases |roster|
  {
    if roster != [] {
      HighRiskKeepsOrder(roster[1..]);
      if roster[0].riskLevel == High {
        assert HighRisk(roster)[1..] == HighRisk(roster[1..]);
        if forall i :: 0 <= i < |roster| ==> roster[i].riskLevel == High {
          assert forall i :: 0 <= i < |roster[1..]| ==> roster[1..][i].riskLevel == High by {
            forall i | 0 <= i < |roster[1..]| ensures roster[1..][i].riskLevel == High {
              assert roster[1..][i] == roster[i + 1];
            }
          }
        }
      } else {
        assert HighRisk(roster) != roster by {
          assert |HighRisk(roster)| <= |roster[1..]|;
        }
        assert [roster[0]] + roster[1..] == roster;
        SubsequenceOfCons(roster[0], HighRisk(roster[1..]), roster[1..]);
      }
    }
  }

  /** A subsequence of a list is a subsequence of that list with one more
      entry in front. */
  lemma {:induction false} SubsequenceOfCons(x: StudentSummary, sub: seq<StudentSummary>, t: seq<StudentSummary>)
    requires IsSubsequence(sub, t)
    ensures IsSubsequence(sub, [x] + t)
    decreases |t|, 1
  {
    assert ([x] + t)[1..] == t;
    if sub != [] && sub[0] == x {
      SubsequenceOfTail(sub, t);
    }
  }

  /** Dropping the head of a non-empty subsequence keeps it a subsequence. */
  lemma {:induction false} SubsequenceOfTail(sub: seq<StudentSummary>, t: seq<StudentSummary>)
    requires sub != [] && IsSubsequence(sub, t)
    ensures IsSubsequence(sub[1..], t)
    decreases |t|, 0
  {
    assert t != [];
    assert [t[0]] + t[1..] == t;
    if sub[0] == t[0] {
      SubsequenceOfCons(t[0], sub[1..], t[1..]);
    } else {
      SubsequenceOfTail(sub, t[1..]);
      SubsequenceOfCons(t[0], sub[1..], t[1..]);
    }
  }
}

=== FILE: navigation.dfy ===
/** The top-level controller of `App.tsx`: who is signed in, which view is
    shown, which course and unit are selected, whether the quiz overlay is
    on, the login boot progress and the floating assistant toggle. The shared
    course catalogue is part of the state so that marking a unit complete,
    done in the source by mutating a shared object, is a by-id update here. */
module Navigation {
  import opened Types
  import Text
  import QuizEngine

  datatype AppState = AppState(
    user: Option<User>,
    view: ViewState,
    selectedCourse: Option<Course>,
    selectedUnit: Option<Unit>,
    quizMode: bool,
    boot: int,
    aiOpen: bool,
    loginId: string,
    password: string,
    catalogue: seq<Course>)

  /** What `renderContent` (and the login gate before it) puts on screen. */
  datatype Screen =
    | LoginScreen(credentialsShown: bool)
    | QuizScreen(topic: string)
    | FacultyHome
    | StudentHome
    | TutorPage
    | AnalyticsPage
    | CoursePage(course: Course)
    | UnitPage(unit: Unit)
    | Blank

  /** The state on first load: nobody signed in, the dashboard view, no
      selection, no quiz, boot progress at zero, the assistant shut and the
      login inputs empty. */
  function Initial(catalogue: seq<Course>): (s: AppState)
    ensures s.user.None? && s.view == Dashboard && s.boot == 0
    ensures s.selectedCourse.None? && s.selectedUnit.None? && !s.quizMode
    ensures !s.aiOpen && s.loginId == "" && s.password == ""
    ensures s.catalogue == catalogue
  {
    AppState(None, Dashboard, None, None, false, 0, false, "", "", catalogue)
  }

  // ------------------------------------------------------------ boot gauge

  const BootComplete: int := 100

  /** One tick of the boot gauge: two points up until it reaches 100. Below
      100 a tick always raises the gauge, from 100 on it pins it at 100, and
      the only way past 100 is the odd value 99. */
  function BootStep(p: int): (r: int)
    ensures p < BootComplete ==> r > p
    ensures p >= BootComplete ==> r == BootComplete
    ensures r > BootComplete <==> p == BootComplete - 1
  {
    if p < BootComplete then p + 2 else BootComplete
  }

  /** The gauge values reachable from zero: even and within `[0, 100]`. */
  ghost predicate BootGaugeOk(p: int) {
    0 <= p <= BootComplete && p % 2 == 0
  }

  /** A tick keeps the gauge even and within bounds, never lowers it, and
      raises it while it is below 100. */
  lemma BootStepBounded(p: int)
    requires BootGaugeOk(p)
    ensures BootGaugeOk(BootStep(p))
    ensures p <= BootStep(p)
    ensures p < BootComplete ==> BootStep(p) > p
  {
  }

  /** The gauge after `k` ticks from zero: `min(2k, 100)`; fifty ticks
      reach exactly 100, and it stays there. */
  function BootAfter(k: nat): (p: int)
    ensures p == (if 2 * k < BootComplete then 2 * k else BootComplete)
    ensures BootGaugeOk(p)
  {
    if k == 0 then 0 else BootStep(BootAfter(k - 1))
  }

  /** The interval only runs on the login screen. */
  function BootTick(s: AppState): (s': AppState)
    ensures s.user.Some? ==> s' == s
    ensures s.user.None? ==> s'.boot == BootStep(s.boot) && s'.(boot := s.boot) == s
  {
    if s.user.None? then s.(boot := BootStep(s.boot)) else s
  }

  // ------------------------------------------------------- session handlers

  /** The login buttons are offered only once the gauge shows 100. */
  predicate LoginOffered(s: AppState) {
    s.user.None? && s.boot == BootComplete
  }

  /** On the login screen the credentials are on screen exactly when the
      login is offered, which after `k` ticks from zero is from the fiftieth
      tick on. */
  lemma LoginOfferedAfterBoot(s: AppState, k: nat)
    requires s.user.None?
    ensures LoginOffered(s) <==> Render(s) == LoginScreen(true)
    ensures s.boot == BootAfter(k) ==> (LoginOffered(s) <==> k >= 50)
  {
  }

  /** Student and faculty login accept the fixed mock account unconditionally. */
  function Login(s: AppState, account: User): (s': AppState)
    ensures s'.user == Some(account)
    ensures s'.(user := s.user) == s
  {
    s.(user := Some(account))
  }

  /** `handleUpdateUser`: replaces the signed-in user record. */
  function UpdateUser(s: AppState, u: User): (s': AppState)
    ensures s'.user == Some(u) && s'.(user := s.user) == s
  {
    s.(user := Some(u))
  }

  /** `handleLogout`: signs out, resets the view, the gauge, the assistant
      and the login inputs. It leaves the selection and the quiz flag alone. */
  function Logout(s: AppState): (s': AppState)
    ensures s'.user.None? && s'.view == Dashboard && s'.boot == 0 && !s'.aiOpen
    ensures s'.loginId == "" && s'.password == ""
    ensures s'.selectedCourse == s.selectedCourse && s'.selectedUnit == s.selectedUnit
    ensures s'.quizMode == s.quizMode && s'.catalogue == s.catalogue
  {
    s.(user := None, view := Dashboard, boot := 0, aiOpen := false, loginId := "", password := "")
  }

  /** The floating trigger flips the assistant widget; its close button shuts it. */
  function ToggleAssistant(s: AppState): (s': AppState)
    ensures s'.aiOpen != s.aiOpen && s'.(aiOpen := s.aiOpen) == s
  {
    s.(aiOpen := !s.aiOpen)
  }

  function CloseAssistant(s: AppState): (s': AppState)
    ensures !s'.aiOpen && s'.(aiOpen := s.aiOpen) == s
  {
    s.(aiOpen := false)
  }

  /** Two presses of the trigger undo each other, and closing a widget that
      the trigger just opened restores the state. */
  lemma AssistantRoundTrip(s: AppState)
    ensures ToggleAssistant(ToggleAssistant(s)) == s
    ensures !s.aiOpen ==> CloseAssistant(ToggleAssistant(s)) == s
    ensures s.aiOpen ==> ToggleAssistant(s) == CloseAssistant(s)
  {
  }

  /** Signing in and straight out again gives the same state as signing out:
      nothing of the session survives except what logout keeps. */
  lemma LoginThenLogout(s: AppState, account: User)
    ensures Logout(Login(Logout(s), account)) == Logout(s)
    ensures Logout(Login(s, account)) == Logout(s)
  {
  }

  // ---------------------------------------------------- navigation handlers

  /** `handleNavigate`: shows `v` and drops the whole selection and the quiz. */
  function Navigate(s: AppState, v: ViewState): (s': AppState)
    ensures s'.view == v
    ensures s'.selectedCourse.None? && s'.selectedUnit.None? && !s'.quizMode
    ensures s'.user == s.user && s'.boot == s.boot && s'.aiOpen == s.aiOpen
    ensures s'.loginId == s.loginId && s'.password == s.password && s'.catalogue == s.catalogue
  {
    s.(view := v, selectedCourse := None, selectedUnit := None, quizMode := false)
  }

  /** `handleSelectCourse`: opens the course page for `c`. */
  function SelectCourse(s: AppState, c: Course): (s': AppState)
    ensures s'.view == CourseDetail && s'.selectedCourse == Some(c)
    ensures s'.selectedUnit == s.selectedUnit && s'.quizMode == s.quizMode
    ensures s'.(view := s.view, selectedCourse := s.selectedCourse) == s
  {
    s.(selectedCourse := Some(c), view := CourseDetail)
  }

  /** `handleSelectUnit`: opens the unit page for `u`. */
  function SelectUnit(s: AppState, u: Unit): (s': AppState)
    ensures s'.view == UnitDetail && s'.selectedUnit == Some(u)
    ensures s'.selectedCourse == s.selectedCourse && s'.quizMode == s.quizMode
    ensures s'.(view := s.view, selectedUnit := s.selectedUnit) == s
  {
    s.(selectedUnit := Some(u), view := UnitDetail)
  }

  /** `handleStartQuiz`: raises the quiz overlay. */
  function StartQuiz(s: AppState): (s': AppState)
    ensures s'.quizMode && s'.(quizMode := s.quizMode) == s
  {
    s.(quizMode := true)
  }

  /** The quiz's cancel callback: lowers the overlay, nothing else. */
  function CancelQuiz(s: AppState): (s': AppState)
    ensures !s'.quizMode && s'.(quizMode := s.quizMode) == s
  {
    s.(quizMode := false)
  }

  /** The course with every unit whose id is `unitId` marked completed. */
  function MarkUnitCompleted(c: Course, unitId: string): (c': Course)
    ensures |c'.units| == |c.units|
    ensures c'.(units := c.units) == c
    ensures forall i :: 0 <= i < |c.units| ==>
      c'.units[i] == (if c.units[i].id == unitId then c.units[i].(completed := true) else c.units[i])
  {
    c.(units := seq(|c.units|, i requires 0 <= i < |c.units| =>
      if c.units[i].id == unitId then c.units[i].(completed := true) else c.units[i]))
  }

  /** Completed units stay completed when another unit is marked. */
  lemma MarkUnitCompletedMonotone(c: Course, unitId: string, i: int)
    requires 0 <= i < |c.units|
    ensures c.units[i].completed ==> MarkUnitCompleted(c, unitId).units[i].completed
    ensures c.units[i].id == unitId ==> MarkUnitCompleted(c, unitId).units[i].completed
  {
  }

  /** Every course of the catalogue with the unit `unitId` marked completed. */
  function MarkInCatalogue(cs: seq<Course>, unitId: string): (cs': seq<Course>)
    ensures |cs'| == |cs|
    ensures forall i :: 0 <= i < |cs| ==> cs'[i] == MarkUnitCompleted(cs[i], unitId)
  {
    seq(|cs|, i requires 0 <= i < |cs| => MarkUnitCompleted(cs[i], unitId))
  }

  /** `handleQuizComplete`: marks the selected unit (if any) completed wherever
      it is listed, then lowers the overlay, returns to the course page and
      clears the unit while keeping the course. The result itself is only
      shown in an alert. */
  function CompleteQuiz(s: AppState, result: QuizResult): (s': AppState)
    ensures !s'.quizMode && s'.view == CourseDetail && s'.selectedUnit.None?
    ensures s'.selectedCourse.Some? <==> s.selectedCourse.Some?
    ensures s'.user == s.user && s'.boot == s.boot && s'.aiOpen == s.aiOpen
    ensures s'.loginId == s.loginId && s'.password == s.password
    ensures s.selectedUnit.None? ==> s'.selectedCourse == s.selectedCourse && s'.catalogue == s.catalogue
    ensures s.selectedUnit.Some? ==>
      && s'.catalogue == MarkInCatalogue(s.catalogue, s.selectedUnit.value.id)
      && (s.selectedCourse.Some? ==>
            s'.selectedCourse == Some(MarkUnitCompleted(s.selectedCourse.value, s.selectedUnit.value.id)))
  {
    var s1 := match s.selectedUnit
      case None => s
      case Some(u) =>
        s.(selectedCourse := match s.selectedCourse
                             case None => None
                             case Some(c) => Some(MarkUnitCompleted(c, u.id)),
           catalogue := MarkInCatalogue(s.catalogue, u.id));
    s1.(quizMode := false, view := CourseDetail, selectedUnit := None)
  }

  /** The "lobby" buttons of the tutor, analytics and course pages: back to
      the dashboard view, with the selection left in place. */
  function BackToLobby(s: AppState): (s': AppState)
    ensures s'.view == Dashboard && s'.(view := s.view) == s
  {
    s.(view := Dashboard)
  }

  /** How the quiz overlay's callbacks reach the controller: a reported
      result completes the quiz, a cancel lowers the overlay. */
  function OnQuizSignal(s: AppState, sig: QuizEngine.Signal): (s': AppState)
    ensures sig.Quiet? ==> s' == s
    ensures sig.Cancelled? ==> s' == CancelQuiz(s)
    ensures sig.Completed? ==> s' == CompleteQuiz(s, sig.result)
  {
    match sig
    case Quiet => s
    case Cancelled => CancelQuiz(s)
    case Completed(r) => CompleteQuiz(s, r)
  }

  /** The controller after reacting to a run's signals in order. */
  function OnQuizSignals(s: AppState, sigs: seq<QuizEngine.Signal>): AppState
    decreases |sigs|
  {
    if sigs == [] then s else OnQuizSignals(OnQuizSignal(s, sigs[0]), sigs[1..])
  }

  /** Signals without a result never touch the catalogue or the selection:
      no unit is marked completed. */
  lemma {:induction false} NoResultKeepsUnits(s: AppState, sigs: seq<QuizEngine.Signal>)
    requires forall i :: 0 <= i < |sigs| ==> !sigs[i].Completed?
    ensures OnQuizSignals(s, sigs).catalogue == s.catalogue
    ensures OnQuizSignals(s, sigs).selectedCourse == s.selectedCourse
    ensures OnQuizSignals(s, sigs).selectedUnit == s.selectedUnit
    decreases |sigs|
  {
    if sigs != [] {
      NoResultKeepsUnits(OnQuizSignal(s, sigs[0]), sigs[1..]);
    }
  }

  /** The unit page's exit button. An uncompleted unit asks for confirmation
      and stays put when refused; otherwise the course page is shown. The
      selected unit is not cleared. */
  function ExitUnit(s: AppState, confirmed: bool): (s': AppState)
    ensures s.selectedUnit.None? ==> s' == s
    ensures s.selectedUnit.Some? && (s.selectedUnit.value.completed || confirmed) ==>
      s' == s.(view := CourseDetail)
    ensures s.selectedUnit.Some? && !s.selectedUnit.value.completed && !confirmed ==> s' == s
  {
    match s.selectedUnit
    case None => s
    case Some(u) => if !u.completed && !confirmed then s else s.(view := CourseDetail)
  }

  // -------------------------------------------------------------- rendering

  /** The topic handed to the quiz: the unit title when a unit is selected,
      otherwise the course's first tag when it is a non-empty string,
      otherwise "General". */
  function QuizTopic(s: AppState): (topic: string)
    ensures s.selectedUnit.Some? ==> topic == s.selectedUnit.value.title
    ensures s.selectedUnit.None? ==> topic != ""
    ensures s.selectedUnit.None? && topic != "General" ==>
      s.selectedCourse.Some? && |s.selectedCourse.value.tags| > 0 && topic == s.selectedCourse.value.tags[0]
  {
    match s.selectedUnit
    case Some(u) => u.title
    case None =>
      if s.selectedCourse.Some? && |s.selectedCourse.value.tags| > 0 && s.selectedCourse.value.tags[0] != ""
      then s.selectedCourse.value.tags[0]
      else "General"
  }

  /** What is on screen: the login card (credentials only at 100 percent),
      then the quiz overlay, then the view, falling back to the student home
      for a course page without a course and to nothing at all for a unit
      page without a unit. */
  function Render(s: AppState): (r: Screen)
    ensures r.LoginScreen? <==> s.user.None?
    ensures r.LoginScreen? ==> (r.credentialsShown <==> s.boot == BootComplete)
    ensures r.QuizScreen? <==> s.user.Some? && s.quizMode
    ensures r.QuizScreen? ==> r.topic == QuizTopic(s)
    ensures r == FacultyHome <==> s.user.Some? && !s.quizMode && s.view == Dashboard && s.user.value.role == Faculty
    ensures r.CoursePage? ==> s.selectedCourse == Some(r.course) && s.view == CourseDetail
    ensures r.UnitPage? ==> s.selectedUnit == Some(r.unit) && s.view == UnitDetail
    ensures s.user.Some? && !s.quizMode ==>
      && (r == TutorPage <==> s.view == AiTutor)
      && (r == AnalyticsPage <==> s.view == Analytics)
      && (r.CoursePage? <==> s.view == CourseDetail && s.selectedCourse.Some?)
      && (r.UnitPage? <==> s.view == UnitDetail && s.selectedUnit.Some?)
    ensures r == StudentHome <==>
      && s.user.Some? && !s.quizMode
      && ((s.view == Dashboard && s.user.value.role != Faculty) || (s.view == CourseDetail && s.selectedCourse.None?))
  {
    if s.user.None? then LoginScreen(s.boot == BootComplete)
    else if s.quizMode then QuizScreen(QuizTopic(s))
    else match s.view
      case Dashboard => if s.user.value.role == Faculty then FacultyHome else StudentHome
      case AiTutor => TutorPage
      case Analytics => AnalyticsPage
      case CourseDetail =>
        (match s.selectedCourse
         case None => StudentHome
         case Some(c) => CoursePage(c))
      case UnitDetail =>
        (match s.selectedUnit
         case None => Blank
         case Some(u) => UnitPage(u))
  }

  /** The notes download name: white-space runs of the unit title become
      underscores, then `_Notes.txt`; nothing happens without a unit. */
  function ExportFilename(s: AppState): (name: Option<string>)
    ensures name.Some? <==> s.selectedUnit.Some?
    ensures name.Some? ==> name.value == Text.ReplaceSpaceRuns(s.selectedUnit.value.title) + "_Notes.txt"
    ensures name.Some? ==>
      && |name.value| >= 10 && name.value[|name.value| - 10..] == "_Notes.txt"
      && (forall i :: 0 <= i < |name.value| ==> !Text.IsSpace(name.value[i]))
  {
    match s.selectedUnit
    case None => None
    case Some(u) => Some(Text.ReplaceSpaceRuns(u.title) + "_Notes.txt")
  }

  // ------------------------------------------------------------- properties

  /** Fields that navigation never touches. */
  ghost predicate SameSession(s: AppState, t: AppState) {
    && s.user == t.user && s.boot == t.boot && s.aiOpen == t.aiOpen
    && s.loginId == t.loginId && s.password == t.password && s.catalogue == t.catalogue
  }

  /** Navigating forgets the prior view, selection and quiz completely: two
      states of the same session navigate to the same state, and navigating
      twice is navigating once. */
  lemma NavigateForgetsSelection(s: AppState, t: AppState, v: ViewState)
    requires SameSession(s, t)
    ensures Navigate(s, v) == Navigate(t, v)
    ensures Navigate(Navigate(s, v), v) == Navigate(s, v)
    ensures SameSession(Navigate(s, v), s)
  {
  }

  /** Choosing a course or a unit shows its page (for a signed-in user,
      without the quiz overlay). */
  lemma SelectShowsPage(s: AppState, c: Course, u: Unit)
    requires s.user.Some? && !s.quizMode
    ensures Render(SelectCourse(s, c)) == CoursePage(c)
    ensures Render(SelectUnit(s, u)) == UnitPage(u)
  {
  }

  /** While the overlay is on the quiz hides every view; cancelling it right
      after starting it restores the state and so the screen that started it. */
  lemma QuizOverlay(s: AppState)
    requires s.user.Some?
    ensures Render(StartQuiz(s)) == QuizScreen(QuizTopic(s))
    ensures !s.quizMode ==> CancelQuiz(StartQuiz(s)) == s
    ensures !s.quizMode ==> Render(CancelQuiz(StartQuiz(s))) == Render(s)
  {
  }

  /** The selected course has a first tag and it is not empty. */
  predicate TagTopic(s: AppState) {
    s.selectedCourse.Some? && |s.selectedCourse.value.tags| > 0 && s.selectedCourse.value.tags[0] != ""
  }

  /** The three cases of the topic: the unit title when a unit is selected;
      otherwise the course's first tag when there is a non-empty one; otherwise
      "General". The topic is empty only for a unit with an empty title. */
  lemma QuizTopicCases(s: AppState)
    ensures QuizTopic(s) == "" <==> s.selectedUnit.Some? && s.selectedUnit.value.title == ""
    ensures s.selectedUnit.Some? ==> QuizTopic(s) == s.selectedUnit.value.title
    ensures s.selectedUnit.None? && TagTopic(s) ==> QuizTopic(s) == s.selectedCourse.value.tags[0]
    ensures s.selectedUnit.None? && !TagTopic(s) ==> QuizTopic(s) == "General"
  {
  }

  /** Completing a quiz from a unit page lands on the course page of that
      course, now showing the unit completed; units that were already
      completed stay so. */
  lemma CompleteShowsCompletedUnit(s: AppState, r: QuizResult, i: int)
    requires s.user.Some?
    requires s.selectedCourse.Some? && s.selectedUnit.Some?
    requires 0 <= i < |s.selectedCourse.value.units|
    ensures var s' := CompleteQuiz(s, r);
      var c' := s'.selectedCourse.value;
      && Render(s') == CoursePage(c')
      && |c'.units| == |s.selectedCourse.value.units|
      && (s.selectedCourse.value.units[i].id == s.selectedUnit.value.id ==> c'.units[i].completed)
      && (s.selectedCourse.value.units[i].completed ==> c'.units[i].completed)
      && (s.selectedCourse.value.units[i].id != s.selectedUnit.value.id ==>
            c'.units[i] == s.selectedCourse.value.units[i])
  {
  }

  /** The defensive fallbacks: a course page without a course shows the
      student home (whatever the role), a unit page without a unit shows
      nothing, and the dashboard view depends only on the role. */
  lemma RenderFallbacks(s: AppState)
    requires s.user.Some? && !s.quizMode
    ensures s.view == CourseDetail && s.selectedCourse.None? ==> Render(s) == StudentHome
    ensures s.view == UnitDetail && s.selectedUnit.None? ==> Render(s) == Blank
    ensures s.view == Dashboard ==> (Render(s) == FacultyHome <==> s.user.value.role == Faculty)
    ensures s.view == Dashboard ==> (Render(s) == StudentHome <==> s.user.value.role != Faculty)
    ensures Render(s) == Blank <==> s.view == UnitDetail && s.selectedUnit.None?
  {
  }

  /** Going back to the lobby keeps the selection, so selecting nothing new
      and re-opening the course page shows the same course again. */
  lemma LobbyKeepsSelection(s: AppState)
    requires s.user.Some? && !s.quizMode && s.selectedCourse.Some?
    ensures BackToLobby(s).selectedCourse == s.selectedCourse
    ensures BackToLobby(s).selectedUnit == s.selectedUnit
    ensures Render(BackToLobby(s).(view := CourseDetail)) == CoursePage(s.selectedCourse.value)
  {
  }

  /** The exit confirmation only matters for a unit that is not completed. */
  lemma ExitConfirmationOnlyWhenIncomplete(s: AppState)
    requires s.selectedUnit.Some?
    ensures s.selectedUnit.value.completed ==> ExitUnit(s, true) == ExitUnit(s, false)
    ensures !s.selectedUnit.value.completed ==> ExitUnit(s, false) == s
    ensures ExitUnit(s, true).view == CourseDetail
  {
  }

  /** Leaving a unit keeps it selected, so the course page's "global" quiz
      started afterwards is about that unit and completing it marks that unit. */
  lemma GlobalQuizAfterExitUsesUnit(s: AppState, r: QuizResult)
    requires s.selectedUnit.Some? && s.selectedCourse.Some?
    ensures var s' := StartQuiz(ExitUnit(s, true));
      && QuizTopic(s') == s.selectedUnit.value.title
      && CompleteQuiz(s', r).selectedCourse
           == Some(MarkUnitCompleted(s.selectedCourse.value, s.selectedUnit.value.id))
  {
  }

  /** Signing out and in again does not lower a raised quiz overlay. */
  lemma LogoutKeepsQuizMode(s: AppState, account: User)
    ensures Render(Logout(s)) == LoginScreen(false)
    ensures Login(Logout(s), account).quizMode == s.quizMode
    ensures s.quizMode ==> Render(Login(Logout(s), account)) == QuizScreen(QuizTopic(s))
  {
  }

  /** For a title without white space the export name is the title followed
      by `_Notes.txt`. */
  lemma ExportFilenamePlainTitle(s: AppState)
    requires s.selectedUnit.Some?
    requires forall i :: 0 <= i < |s.selectedUnit.value.title| ==> !Text.IsSpace(s.selectedUnit.value.title[i])
    ensures ExportFilename(s) == Some(s.selectedUnit.value.title + "_Notes.txt")
  {
    Text.ReplaceSpaceRunsKeepsSpaceFree(s.selectedUnit.value.title);
  }

  /** The tick survives leaving the course: after completing a unit, opening
      any catalogue entry that lists it shows it completed. */
  lemma CompletionSurvivesReentry(s: AppState, r: QuizResult, j: int, i: int)
    requires s.user.Some? && s.selectedUnit.Some?
    requires 0 <= j < |s.catalogue| && 0 <= i < |s.catalogue[j].units|
    requires s.catalogue[j].units[i].id == s.selectedUnit.value.id
    ensures var s' := CompleteQuiz(s, r);
      var back := SelectCourse(Navigate(s', Dashboard), s'.catalogue[j]);
      && Render(back) == CoursePage(s'.catalogue[j])
      && back.selectedCourse.value.units[i].completed
  {
  }
}

=== FILE: quiz.dfy ===
/** The quiz engine of `components/Quiz.tsx`: a session that loads generated
    questions, records one answer per question, moves a clamped cursor,
    locks the answers on submission and reports a scored result. */
module QuizEngine {
  import opened Types

  /** The `Record<number, string>` of chosen options, keyed by question index. */
  type Answers = map<int, string>

  // ---------------------------------------------------------------- scoring

  /** Question `i` is answered with exactly its correct answer text; a
      missing answer (JavaScript `undefined`) never matches. */
  predicate IsCorrect(qs: seq<QuizQuestion>, answers: Answers, i: int)
    requires 0 <= i < |qs|
  {
    i in answers && answers[i] == qs[i].correctAnswer
  }

  /** Number of correct answers among the first `n` questions. */
  function CountCorrect(qs: seq<QuizQuestion>, answers: Answers, n: nat): (c: nat)
    requires n <= |qs|
    ensures c <= n
  {
    if n == 0 then 0
    else CountCorrect(qs, answers, n - 1) + (if IsCorrect(qs, answers, n - 1) then 1 else 0)
  }

  /** The indices below `n` whose answer is correct. */
  ghost function CorrectBelow(qs: seq<QuizQuestion>, answers: Answers, n: nat): set<int>
    requires n <= |qs|
  {
    set i | 0 <= i < n && IsCorrect(qs, answers, i)
  }

  /** The running count is the size of the set of correctly answered indices. */
  lemma {:induction false} CountCorrectIsCardinality(qs: seq<QuizQuestion>, answers: Answers, n: nat)
    requires n <= |qs|
    ensures CountCorrect(qs, answers, n) == |CorrectBelow(qs, answers, n)|
  {
    if n > 0 {
      CountCorrectIsCardinality(qs, answers, n - 1);
      var below := CorrectBelow(qs, answers, n - 1);
      if IsCorrect(qs, answers, n - 1) {
        assert CorrectBelow(qs, answers, n) == below + {n - 1};
      } else {
        assert CorrectBelow(qs, answers, n) == below;
      }
    }
  }

  /** Mastery tier of `score` out of `total`, with the percentage comparison
      `100 * score / total > 80` (resp. `> 50`) cross-multiplied into integers. */
  function Classify(score: int, total: int): (m: Mastery)
    ensures total > 0 && score == total ==> m == Advanced
    ensures total >= 0 && score <= 0 ==> m == Beginner
    ensures total > 0 && 5 * score == 4 * total ==> m == Intermediate
    ensures total > 0 && 2 * score == total ==> m == Beginner
  {
    if 100 * score > 80 * total then Advanced
    else if 100 * score > 50 * total then Intermediate
    else Beginner
  }

  /** The integer tiers agree with the exact percentage for every non-empty
      quiz: Advanced iff above 80 percent, Intermediate iff above 50 percent
      and not above 80, Beginner otherwise. */
  lemma ClassifyMatchesPercentage(score: int, total: int)
    requires total > 0
    ensures var pct := (score as real / total as real) * 100.0;
      && (Classify(score, total) == Advanced <==> pct > 80.0)
      && (Classify(score, total) == Intermediate <==> 50.0 < pct <= 80.0)
      && (Classify(score, total) == Beginner <==> pct <= 50.0)
  {
    var t := total as real;
    var pct := (score as real / t) * 100.0;
    var hundred := 100.0 * score as real;
    assert pct * t == hundred;
    assert pct > 80.0 <==> hundred > 80.0 * t by {
      ScaleByPositive(pct, 80.0, t, hundred);
    }
    assert pct > 50.0 <==> hundred > 50.0 * t by {
      ScaleByPositive(pct, 50.0, t, hundred);
    }
  }

  /** Comparing two reals is the same as comparing them scaled by a positive
      factor `t`; `at` is the scaled `a`. */
  lemma ScaleByPositive(a: real, b: real, t: real, at: real)
    requires t > 0.0 && at == a * t
    ensures a > b <==> at > b * t
  {
    if a > b {
      assert at - b * t == (a - b) * t;
      assert (a - b) * t > 0.0;
    } else {
      assert b * t - at == (b - a) * t;
      assert (b - a) * t >= 0.0;
    }
  }

  /** A higher score never yields a lower tier. */
  lemma ClassifyMonotone(s1: int, s2: int, total: int)
    requires s1 <= s2
    ensures Classify(s1, total) == Advanced ==> Classify(s2, total) == Advanced
    ensures Classify(s2, total) == Beginner ==> Classify(s1, total) == Beginner
  {
  }

  /** The result reported for a set of answers (`calculateScore`). */
  function ScoreOf(qs: seq<QuizQuestion>, answers: Answers): (r: QuizResult)
    ensures r.total == |qs| && 0 <= r.score <= r.total
    ensures r.masteryLevel == Classify(r.score, r.total)
    ensures r.score == r.total <==> forall i :: 0 <= i < |qs| ==> IsCorrect(qs, answers, i)
    ensures r.score == 0 <==> forall i :: 0 <= i < |qs| ==> !IsCorrect(qs, answers, i)
  {
    var score := CountCorrect(qs, answers, |qs|);
    CountCorrectExtremes(qs, answers, |qs|);
    QuizResult(score, |qs|, Classify(score, |qs|))
  }

  /** The count is full exactly when every question so far is correct, and
      zero exactly when none is. */
  lemma {:induction false} CountCorrectExtremes(qs: seq<QuizQuestion>, answers: Answers, n: nat)
    requires n <= |qs|
    ensures CountCorrect(qs, answers, n) == n <==> forall i :: 0 <= i < n ==> IsCorrect(qs, answers, i)
    ensures CountCorrect(qs, answers, n) == 0 <==> forall i :: 0 <= i < n ==> !IsCorrect(qs, answers, i)
  {
    if n > 0 {
      CountCorrectExtremes(qs, answers, n - 1);
    }
  }

  /** `calculateScore` as the source writes it: one pass over the questions
      incrementing a counter on every exact match. */
  method CalculateScore(qs: seq<QuizQuestion>, answers: Answers) returns (r: QuizResult)
    ensures r.total == |qs|
    ensures 0 <= r.score <= r.total
    ensures r.score == |set i | 0 <= i < |qs| && IsCorrect(qs, answers, i)|
    ensures r.masteryLevel == Classify(r.score, r.total)
    ensures r == ScoreOf(qs, answers)
  {
    var score := 0;
    var idx := 0;
    while idx < |qs|
      invariant 0 <= idx <= |qs|
      invariant score == CountCorrect(qs, answers, idx)
    {
      if idx in answers && answers[idx] == qs[idx].correctAnswer {
        score := score + 1;
      }
      idx := idx + 1;
    }
    CountCorrectIsCardinality(qs, answers, |qs|);
    r := QuizResult(score, |qs|, Classify(score, |qs|));
  }

  // ---------------------------------------------------------- session state

  /** A quiz session. `Loading` waits for the generator; `Failed` is the
      empty-question branch; `Active` holds the questions, the cursor, the
      chosen answers and whether they have been submitted. */
  datatype QuizState =
    | Loading(topic: string)
    | Failed(topic: string)
    | Active(topic: string, questions: seq<QuizQuestion>, index: int, answers: Answers, submitted: bool)

  /** The user-facing controls of the quiz card. */
  datatype QuizAction = SelectOption(option: string) | Previous | Next | Submit | Finish | Cancel

  /** What a step reports to the component that opened the quiz. */
  datatype Signal = Quiet | Completed(result: QuizResult) | Cancelled

  /** A freshly mounted quiz: loading questions for the topic, no answers. */
  function Start(topic: string): (s: QuizState)
    ensures s.Loading? && s.topic == topic
  {
    Loading(topic)
  }

  /** The generator has answered: an empty list is the failure screen, any
      other list starts at the first question with no answers recorded. */
  function Loaded(s: QuizState, generated: seq<QuizQuestion>): (s': QuizState)
    ensures !s.Loading? ==> s' == s
    ensures s.Loading? && |generated| == 0 ==> s'.Failed?
    ensures s.Loading? && |generated| > 0 ==>
      s'.Active? && s'.questions == generated && s'.index == 0 && s'.answers == map[] && !s'.submitted
  {
    if !s.Loading? then s
    else if |generated| == 0 then Failed(s.topic)
    else Active(s.topic, generated, 0, map[], false)
  }

  /** Well-formed active sessions: at least one question, the cursor on a
      question, and answers only for existing questions. */
  ghost predicate Valid(s: QuizState) {
    s.Active? ==>
      && |s.questions| > 0
      && 0 <= s.index < |s.questions|
      && (forall k :: k in s.answers ==> 0 <= k < |s.questions|)
  }

  /** The current question has a truthy answer (present and not ""). */
  predicate Answered(s: QuizState)
    requires s.Active?
  {
    s.index in s.answers && s.answers[s.index] != ""
  }

  predicate IsLast(s: QuizState)
    requires s.Active?
  {
    s.index == |s.questions| - 1
  }

  /** Which controls are on screen and not disabled. Loading shows none; the
      failure screen only "Return"; the question card shows the options until
      submission, "Previous" except on the first question, "Next" on every
      question but the last and "Submit" on the last one, both only once the
      current question has a truthy answer and before submission, and
      "Complete" after submission. */
  function Enabled(s: QuizState, a: QuizAction): (b: bool)
    requires Valid(s)
    ensures b && !s.Active? ==> s.Failed? && a.Cancel?
    ensures b && s.Active? ==> !a.Cancel?
    ensures b && s.Active? && s.submitted ==> a.Finish? || a.Previous?
    ensures b && (a.Next? || a.Submit?) ==> s.Active? && !s.submitted && Answered(s)
    ensures b && a.Finish? ==> s.Active? && s.submitted
    ensures !s.Active? ==> (b <==> s.Failed? && a.Cancel?)
    ensures s.Active? && a.SelectOption? ==> (b <==> !s.submitted && a.option in s.questions[s.index].options)
    ensures s.Active? && a.Previous? ==> (b <==> s.index != 0)
    ensures s.Active? && a.Next? ==> (b <==> !s.submitted && !IsLast(s) && Answered(s))
    ensures s.Active? && a.Submit? ==> (b <==> !s.submitted && IsLast(s) && Answered(s))
    ensures s.Active? && a.Finish? ==> (b <==> s.submitted)
  {
    match s
    case Loading(_) => false
    case Failed(_) => a.Cancel?
    case Active(_, qs, i, _, submitted) =>
      match a
      case SelectOption(o) => !submitted && o in qs[i].options
      case Previous => i != 0
      case Next => !submitted && !IsLast(s) && Answered(s)
      case Submit => !submitted && IsLast(s) && Answered(s)
      case Finish => submitted
      case Cancel => false
  }

  /** The handlers themselves, without the guards of the buttons:
      `handleOptionSelect` ignores clicks once submitted, Previous and Next
      clamp the cursor with `Math.max(0, i - 1)` and `Math.min(n - 1, i + 1)`,
      Submit locks the answers, Finish scores them and reports the result, and
      Cancel reports to the parent without touching the session. */
  function Step(s: QuizState, a: QuizAction): (r: (QuizState, Signal))
    ensures r.1.Completed? <==> s.Active? && a.Finish?
    ensures r.1.Cancelled? <==> a.Cancel?
    ensures r.1.Completed? ==> r.0 == s && r.1.result == ScoreOf(s.questions, s.answers)
    ensures !s.Active? ==> r.0 == s
    ensures s.Active? ==> r.0.Active? && r.0.topic == s.topic && r.0.questions == s.questions
    ensures s.Active? && !a.SelectOption? ==> r.0.answers == s.answers
    ensures s.Active? && a.Submit? ==> r.0 == s.(submitted := true)
    ensures s.Active? && !a.Submit? ==> r.0.submitted == s.submitted
  {
    if !s.Active? then
      (s, if a.Cancel? then Cancelled else Quiet)
    else
      var Active(t, qs, i, ans, submitted) := s;
      match a
      case SelectOption(o) =>
        if submitted then (s, Quiet) else (Active(t, qs, i, ans[i := o], submitted), Quiet)
      case Previous => (Active(t, qs, if i - 1 > 0 then i - 1 else 0, ans, submitted), Quiet)
      case Next => (Active(t, qs, if |qs| - 1 < i + 1 then |qs| - 1 else i + 1, ans, submitted), Quiet)
      case Submit => (Active(t, qs, i, ans, true), Quiet)
      case Finish => (s, Completed(ScoreOf(qs, ans)))
      case Cancel => (s, Cancelled)
  }

  /** Every handler keeps a well-formed session well-formed, whether or not
      its button was enabled: the cursor stays within `[0, n)`. */
  lemma StepPreservesValid(s: QuizState, a: QuizAction)
    requires Valid(s)
    ensures Valid(Step(s, a).0)
    ensures s.Active? ==> Step(s, a).0.Active? && Step(s, a).0.questions == s.questions
  {
  }

  /** Previous never goes below the first question and moves back by exactly
      one otherwise; Next never passes the last question and moves forward by
      exactly one otherwise. */
  lemma CursorClamped(s: QuizState)
    requires Valid(s) && s.Active?
    ensures Step(s, Previous).0.index == (if s.index == 0 then 0 else s.index - 1)
    ensures Step(s, Next).0.index == (if IsLast(s) then s.index else s.index + 1)
  {
  }

  /** Selecting an option before submission records it for the current
      question and for no other; after submission it changes nothing. */
  lemma SelectOnlyTouchesCurrent(s: QuizState, o: string)
    requires Valid(s) && s.Active?
    ensures var s' := Step(s, SelectOption(o)).0;
      && s'.index == s.index && s'.submitted == s.submitted
      && (s.submitted ==> s' == s)
      && (!s.submitted ==>
            && s'.answers.Keys == s.answers.Keys + {s.index}
            && s'.answers[s.index] == o
            && (forall k :: k in s.answers && k != s.index ==> s'.answers[k] == s.answers[k]))
  {
  }

  /** Once submitted, no handler changes the answers or unlocks them. */
  lemma SubmittedIsLocked(s: QuizState, a: QuizAction)
    requires Valid(s) && s.Active? && s.submitted
    ensures Step(s, a).0.answers == s.answers
    ensures Step(s, a).0.submitted
  {
  }

  /** Reachable sessions: well-formed, and a submitted session has a truthy
      answer on its last question, since Submit is only offered there. */
  ghost predicate Reachable(s: QuizState) {
    && Valid(s)
    && (s.Active? && s.submitted ==>
          var last := |s.questions| - 1;
          last in s.answers && s.answers[last] != "")
  }

  /** Enabled controls keep a session reachable. */
  lemma EnabledStepPreservesReachable(s: QuizState, a: QuizAction)
    requires Reachable(s) && Enabled(s, a)
    ensures Reachable(Step(s, a).0)
  {
  }

  /** The controls of a session in each phase. Before submission Finish is
      not offered; Next and Submit need a truthy answer; Submit is offered only
      on the last question and Next only before it. */
  lemma GuardsOfNextAndSubmit(s: QuizState)
    requires Valid(s) && s.Active?
    ensures Enabled(s, Submit) ==> !s.submitted && IsLast(s) && Answered(s)
    ensures Enabled(s, Next) ==> !s.submitted && s.index < |s.questions| - 1 && Answered(s)
    ensures !Answered(s) ==> !Enabled(s, Next) && !Enabled(s, Submit)
    ensures Enabled(s, Finish) <==> s.submitted
    ensures Enabled(s, Submit) <==> !s.submitted && IsLast(s) && Answered(s)
    ensures Enabled(s, Next) <==> !s.submitted && !IsLast(s) && Answered(s)
    ensures !(Enabled(s, Next) && Enabled(s, Submit))
  {
  }

  /** An empty question list leads to the failure screen, whose only control
      is cancel, and no step from it ever reports a result. */
  lemma EmptyGenerationFails(topic: string, a: QuizAction)
    ensures var s := Loaded(Start(topic), []);
      && s == Failed(topic)
      && (Enabled(s, a) <==> a == Cancel)
      && !Step(s, a).1.Completed?
      && Step(s, a).0 == s
  {
  }

  /** Finishing reports the score of the locked answers over all questions,
      with a non-zero total, and leaves the session as it was; finishing again
      reports the same result. */
  lemma FinishReportsLockedScore(s: QuizState)
    requires Valid(s) && s.Active? && s.submitted
    ensures var (s', sig) := Step(s, Finish);
      && s' == s
      && sig == Completed(ScoreOf(s.questions, s.answers))
      && sig.result.total == |s.questions| > 0
      && 0 <= sig.result.score <= sig.result.total
      && Step(s', Finish) == (s', sig)
  {
  }

  // ------------------------------------------------------------------ runs

  /** A run of clicks: controls that are not enabled do nothing (their
      buttons are absent or disabled), the others step the session; one
      signal per click. */
  function Drive(s: QuizState, actions: seq<QuizAction>): (res: (QuizState, seq<Signal>))
    requires Valid(s)
    ensures Valid(res.0) && |res.1| == |actions|
    ensures s.Active? ==> res.0.Active? && res.0.questions == s.questions
    decreases |actions|
  {
    if actions == [] then (s, [])
    else
      StepPreservesValid(s, actions[0]);
      var first := if Enabled(s, actions[0]) then Step(s, actions[0]) else (s, Quiet);
      var rest := Drive(first.0, actions[1..]);
      (rest.0, [first.1] + rest.1)
  }

  /** The first click of a run: a control that is absent or disabled leaves
      the session as it is and reports nothing; an enabled one steps the
      session and reports the step's signal. */
  lemma DriveHead(s: QuizState, a: QuizAction, rest: seq<QuizAction>)
    requires Valid(s)
    ensures !Enabled(s, a) ==> Drive(s, [a] + rest) == (Drive(s, rest).0, [Quiet] + Drive(s, rest).1)
    ensures Enabled(s, a) ==>
      Valid(Step(s, a).0) &&
      Drive(s, [a] + rest) == (Drive(Step(s, a).0, rest).0, [Step(s, a).1] + Drive(Step(s, a).0, rest).1)
  {
    StepPreservesValid(s, a);
    assert ([a] + rest)[0] == a && ([a] + rest)[1..] == rest;
  }

  /** One enabled click at the head of a run, with the step's outcome and the
      rest of the run given. */
  lemma DriveStep(s: QuizState, a: QuizAction, rest: seq<QuizAction>,
                  s1: QuizState, sig: Signal, end: QuizState, sigs: seq<Signal>)
    requires Valid(s) && Enabled(s, a) && Step(s, a) == (s1, sig)
    requires Valid(s1) && Drive(s1, rest) == (end, sigs)
    ensures Drive(s, [a] + rest) == (end, [sig] + sigs)
  {
    DriveHead(s, a, rest);
  }

  /** Every run from a reachable session stays reachable: in particular a
      submitted session always has an answer on its last question. */
  lemma {:induction false} DriveKeepsReachable(s: QuizState, actions: seq<QuizAction>)
    requires Reachable(s)
    ensures Reachable(Drive(s, actions).0)
    decreases |actions|
  {
    if actions != [] {
      StepPreservesValid(s, actions[0]);
      var first := if Enabled(s, actions[0]) then Step(s, actions[0]) else (s, Quiet);
      if Enabled(s, actions[0]) {
        EnabledStepPreservesReachable(s, actions[0]);
      }
      DriveKeepsReachable(first.0, actions[1..]);
    }
  }

  /** The failure screen is final: whatever is clicked, the session stays
      failed and no result is ever reported. */
  lemma {:induction false} FailedNeverCompletes(topic: string, actions: seq<QuizAction>)
    ensures Drive(Failed(topic), actions).0 == Failed(topic)
    ensures forall i :: 0 <= i < |actions| ==> !Drive(Failed(topic), actions).1[i].Completed?
    decreases |actions|
  {
    if actions != [] {
      FailedNeverCompletes(topic, actions[1..]);
    }
  }

  /** A run that reports a result reports the score of a submitted session:
      the signal's total is the number of questions, which is never zero. */
  lemma {:induction false} CompletedRunsScoreAllQuestions(s: QuizState, actions: seq<QuizAction>, i: int)
    requires Valid(s) && 0 <= i < |actions|
    requires Drive(s, actions).1[i].Completed?
    ensures s.Active?
    ensures Drive(s, actions).1[i].result.total == |s.questions| > 0
    decreases |actions|
  {
    StepPreservesValid(s, actions[0]);
    var first := if Enabled(s, actions[0]) then Step(s, actions[0]) else (s, Quiet);
    if i > 0 {
      CompletedRunsScoreAllQuestions(first.0, actions[1..], i - 1);
    }
  }
}

=== FILE: scenarios.dfy ===
/** Concrete runs of the model on small fixtures in the style of the mock
    data: the scoring examples, a whole quiz from the unit page, the
    generation failure, the unit-page fallback and the risk filter. */
module Scenarios {
  import opened Types
  import QuizEngine
  import Navigation
  import Faculty
  import Text

  const Options: seq<string> := ["A", "B", "C", "D"]

  /** Three questions whose correct answers are B, A and C. */
  const Questions: seq<QuizQuestion> := [
    QuizQuestion("q1", Options, "B"),
    QuizQuestion("q2", Options, "A"),
    QuizQuestion("q3", Options, "C")
  ]

  /** All right, one wrong, all wrong: 3/3 is Advanced, 2/3 Intermediate,
      0/3 Beginner. */
  lemma ScoringExamples()
    ensures QuizEngine.ScoreOf(Questions, map[0 := "B", 1 := "A", 2 := "C"]) == QuizResult(3, 3, Advanced)
    ensures QuizEngine.ScoreOf(Questions, map[0 := "B", 1 := "X", 2 := "C"]) == QuizResult(2, 3, Intermediate)
    ensures QuizEngine.ScoreOf(Questions, map[0 := "X", 1 := "X", 2 := "X"]) == QuizResult(0, 3, Beginner)
    ensures QuizEngine.ScoreOf(Questions, map[1 := "A"]) == QuizResult(1, 3, Beginner)
  {
    var all := map[0 := "B", 1 := "A", 2 := "C"];
    assert QuizEngine.CountCorrect(Questions, all, 1) == 1;
    assert QuizEngine.CountCorrect(Questions, all, 2) == 2;
    assert QuizEngine.CountCorrect(Questions, all, 3) == 3;
    var one := map[0 := "B", 1 := "X", 2 := "C"];
    assert QuizEngine.CountCorrect(Questions, one, 1) == 1;
    assert QuizEngine.CountCorrect(Questions, one, 2) == 1;
    assert QuizEngine.CountCorrect(Questions, one, 3) == 2;
    var none := map[0 := "X", 1 := "X", 2 := "X"];
    assert QuizEngine.CountCorrect(Questions, none, 1) == 0;
    assert QuizEngine.CountCorrect(Questions, none, 2) == 0;
    assert QuizEngine.CountCorrect(Questions, none, 3) == 0;
    var partial := map[1 := "A"];
    assert QuizEngine.CountCorrect(Questions, partial, 1) == 0;
    assert QuizEngine.CountCorrect(Questions, partial, 2) == 1;
    assert QuizEngine.CountCorrect(Questions, partial, 3) == 1;
  }

  /** The strict thresholds: exactly 80 percent is Intermediate, exactly 50
      percent is Beginner, 100 percent is Advanced. */
  lemma MasteryBoundaries()
    ensures QuizEngine.Classify(4, 5) == Intermediate
    ensures QuizEngine.Classify(1, 2) == Beginner
    ensures QuizEngine.Classify(5, 5) == Advanced
    ensures QuizEngine.Classify(0, 0) == Beginner
  {
  }

  const Learner: User := User("s1", "Rohan", "r@x", Student, "av", None, None, None, None, None, None)

  const Unit1: Unit := Unit("u1", "Unit 1", "d", "v", "n", false)
  const Unit2: Unit := Unit("u2", "Unit 2", "d", "v", "n", false)
  const Scm: Course := Course("c1", "MBA-601", "SCM", "Dr", 65, "t", ["Logistics"], "d", [Unit1, Unit2])

  /** A signed-in student on the unit page of the first unit, quiz raised. */
  const OnUnitQuiz: Navigation.AppState :=
    Navigation.AppState(Some(Learner), UnitDetail, Some(Scm), Some(Unit1), true, 100, false, "", "", [Scm])

  const Answers3: QuizEngine.Answers := map[0 := "B", 1 := "A", 2 := "C"]
  const Done: QuizEngine.Signal := QuizEngine.Completed(QuizResult(3, 3, Advanced))

  /** The clicks of a learner who answers B, A, C and then submits and finishes. */
  const Clicks: seq<QuizEngine.QuizAction> := [
    QuizEngine.SelectOption("B"), QuizEngine.Next,
    QuizEngine.SelectOption("A"), QuizEngine.Next,
    QuizEngine.SelectOption("C"), QuizEngine.Submit,
    QuizEngine.Finish]

  /** The session on the three questions, before the k-th click of the run. */
  function Session(t: string, k: nat): (s: QuizEngine.QuizState)
    ensures s.Active? && s.questions == Questions
  {
    if k == 0 then QuizEngine.Active(t, Questions, 0, map[], false)
    else if k == 1 then QuizEngine.Active(t, Questions, 0, map[0 := "B"], false)
    else if k == 2 then QuizEngine.Active(t, Questions, 1, map[0 := "B"], false)
    else if k == 3 then QuizEngine.Active(t, Questions, 1, map[0 := "B", 1 := "A"], false)
    else if k == 4 then QuizEngine.Active(t, Questions, 2, map[0 := "B", 1 := "A"], false)
    else if k == 5 then QuizEngine.Active(t, Questions, 2, Answers3, false)
    else QuizEngine.Active(t, Questions, 2, Answers3, true)
  }

  /** The k-th click is enabled and leads to the next session; only the last
      one reports a result. */
  lemma ClickFacts(t: string, k: nat)
    requires k < |Clicks|
    ensures QuizEngine.Valid(Session(t, k)) && QuizEngine.Valid(Session(t, k + 1))
    ensures QuizEngine.Enabled(Session(t, k), Clicks[k])
    ensures QuizEngine.Step(Session(t, k), Clicks[k])
      == (Session(t, k + 1), if k == 6 then Done else QuizEngine.Quiet)
  {
    if k == 6 {
      ScoringExamples();
      assert Answers3 == map[0 := "B", 1 := "A", 2 := "C"];
    } else if k == 4 {
      assert Answers3 == map[0 := "B", 1 := "A", 2 := "C"];
    }
  }

  /** The signals the run reports from the k-th click on. */
  function Signals(k: nat): seq<QuizEngine.Signal>
    decreases 7 - k
  {
    if k >= 7 then [] else [if k == 6 then Done else QuizEngine.Quiet] + Signals(k + 1)
  }

  /** The run from before the k-th click: Quiet for every click but the
      last, which reports 3/3 Advanced. */
  lemma {:induction false} RunFrom(t: string, k: nat)
    requires k <= |Clicks|
    ensures QuizEngine.Valid(Session(t, k))
    ensures QuizEngine.Drive(Session(t, k), Clicks[k..])
      == (Session(t, 7), Signals(k))
    decreases 7 - k
  {
    if k == 7 {
      ClickFacts(t, 6);
      assert Clicks[k..] == [];
    } else {
      RunFrom(t, k + 1);
      RunOneClick(t, k, Clicks[k + 1..], Signals(k + 1));
    }
  }

  /** One click of the run: the run after it extends by its signal. */
  lemma RunOneClick(t: string, k: nat, rest: seq<QuizEngine.QuizAction>, sigs: seq<QuizEngine.Signal>)
    requires k < |Clicks| && rest == Clicks[k + 1..]
    requires QuizEngine.Drive(Session(t, k + 1), rest) == (Session(t, 7), sigs)
    ensures QuizEngine.Drive(Session(t, k), Clicks[k..])
      == (Session(t, 7), [if k == 6 then Done else QuizEngine.Quiet] + sigs)
  {
    ClickFacts(t, k);
    assert Clicks[k..] == [Clicks[k]] + rest;
    QuizEngine.DriveStep(Session(t, k), Clicks[k], rest, Session(t, k + 1),
              if k == 6 then Done else QuizEngine.Quiet, Session(t, 7), sigs);
  }

  /** Loading the three questions opens the first session of the run. */
  lemma LoadedIsFirstSession(t: string)
    ensures QuizEngine.Loaded(QuizEngine.Start(t), Questions) == Session(t, 0)
  {
  }

  lemma WholeRunSignals()
    ensures Signals(0) == [QuizEngine.Quiet, QuizEngine.Quiet, QuizEngine.Quiet, QuizEngine.Quiet,
                           QuizEngine.Quiet, QuizEngine.Quiet, Done]
  {
    assert Signals(6) == [Done];
  }

  /** The whole run reports nothing until the final click, which reports 3/3
      Advanced. */
  lemma RunWholeQuiz(t: string)
    ensures QuizEngine.Drive(QuizEngine.Loaded(QuizEngine.Start(t), Questions), Clicks).1
      == [QuizEngine.Quiet, QuizEngine.Quiet, QuizEngine.Quiet, QuizEngine.Quiet,
          QuizEngine.Quiet, QuizEngine.Quiet, Done]
  {
    RunFrom(t, 0);
    WholeRunSignals();
    LoadedIsFirstSession(t);
    assert Clicks[0..] == Clicks;
  }

  /** Quiet signals leave the controller alone; the final result completes the quiz. */
  lemma ControllerAfterRun(s: Navigation.AppState)
    ensures Navigation.OnQuizSignals(s, [QuizEngine.Quiet, QuizEngine.Quiet, QuizEngine.Quiet, QuizEngine.Quiet,
                                         QuizEngine.Quiet, QuizEngine.Quiet, Done])
      == Navigation.CompleteQuiz(s, QuizResult(3, 3, Advanced))
  {
    var q := QuizEngine.Quiet;
    var sigs := [q, q, q, q, q, q, Done];
    assert sigs[1..] == [q, q, q, q, q, Done];
    assert sigs[1..][1..] == [q, q, q, q, Done];
    assert sigs[1..][1..][1..] == [q, q, q, Done];
    assert sigs[1..][1..][1..][1..] == [q, q, Done];
    assert sigs[1..][1..][1..][1..][1..] == [q, Done];
    assert sigs[1..][1..][1..][1..][1..][1..] == [Done];
    assert [Done][1..] == [];
    assert Navigation.OnQuizSignals(Navigation.CompleteQuiz(s, QuizResult(3, 3, Advanced)), [])
      == Navigation.CompleteQuiz(s, QuizResult(3, 3, Advanced));
    assert Navigation.OnQuizSignals(s, [Done]) == Navigation.CompleteQuiz(s, QuizResult(3, 3, Advanced));
    assert Navigation.OnQuizSignals(s, [q, Done]) == Navigation.OnQuizSignals(s, [Done]);
    assert Navigation.OnQuizSignals(s, [q, q, Done]) == Navigation.OnQuizSignals(s, [q, Done]);
    assert Navigation.OnQuizSignals(s, [q, q, q, Done]) == Navigation.OnQuizSignals(s, [q, q, Done]);
    assert Navigation.OnQuizSignals(s, [q, q, q, q, Done]) == Navigation.OnQuizSignals(s, [q, q, q, Done]);
    assert Navigation.OnQuizSignals(s, [q, q, q, q, q, Done]) == Navigation.OnQuizSignals(s, [q, q, q, q, Done]);
  }

  /** Answering B, A, C with Next in between, submitting and finishing
      reports 3/3 Advanced; the controller then shows the course page with
      the first unit completed and the second untouched. */
  lemma WholeQuizFromUnitPage()
    ensures var s0 := QuizEngine.Loaded(QuizEngine.Start(Navigation.QuizTopic(OnUnitQuiz)), Questions);
      var run := QuizEngine.Drive(s0, Clicks);
      && run.1[6] == Done
      && Navigation.OnQuizSignals(OnUnitQuiz, run.1).selectedCourse
           == Some(Scm.(units := [Unit1.(completed := true), Unit2]))
      && Navigation.Render(Navigation.OnQuizSignals(OnUnitQuiz, run.1))
           == Navigation.CoursePage(Scm.(units := [Unit1.(completed := true), Unit2]))
  {
    var q := QuizEngine.Quiet;
    var topic := Navigation.QuizTopic(OnUnitQuiz);
    assert topic == "Unit 1";
    RunWholeQuiz(topic);
    var sigs := QuizEngine.Drive(QuizEngine.Loaded(QuizEngine.Start(topic), Questions), Clicks).1;
    assert sigs == [q, q, q, q, q, q, Done];
    ControllerAfterRun(OnUnitQuiz);
    CompletingUnitOne();
  }

  /** Completing the first unit of the unit page's course. */
  lemma CompletingUnitOne()
    ensures var s' := Navigation.CompleteQuiz(OnUnitQuiz, QuizResult(3, 3, Advanced));
      && s'.selectedCourse == Some(Scm.(units := [Unit1.(completed := true), Unit2]))
      && Navigation.Render(s') == Navigation.CoursePage(Scm.(units := [Unit1.(completed := true), Unit2]))
  {
    var c' := Navigation.MarkUnitCompleted(Scm, "u1");
    assert c'.units[0] == Unit1.(completed := true) && c'.units[1] == Unit2;
    assert c' == Scm.(units := [Unit1.(completed := true), Unit2]);
  }

  /** The title "Unit 1: Network Optimization", written in its four words. */
  const SpacedTitle: string := "Unit" + " " + ("1:" + " " + ("Network" + " " + "Optimization"))

  /** A title with spaces: each space becomes one underscore, giving
      "Unit_1:_Network_Optimization_Notes.txt". */
  lemma ExportFilenameSpacedTitle()
    ensures Navigation.ExportFilename(OnUnitQuiz.(selectedUnit := Some(Unit1.(title := SpacedTitle))))
      == Some("Unit" + "_" + ("1:" + "_" + ("Network" + "_" + "Optimization")) + "_Notes.txt")
  {
    RewriteTitle();
  }

  /** A visible word, one space, then the rest: the space becomes an
      underscore and the rest is rewritten on its own. */
  lemma RewriteWordThenRest(word: string, rest: string)
    requires Visible(word)
    requires rest != [] && !Text.IsSpace(rest[0])
    ensures Text.ReplaceSpaceRuns(word + " " + rest) == word + "_" + Text.ReplaceSpaceRuns(rest)
  {
    Text.ReplaceSpaceRunsKeepsSpaceFree(word);
    Text.ReplaceSpaceRunsSplit(word, " ", rest);
  }

  /** The words of the title hold no white space. */
  predicate Visible(w: string) {
    forall i :: 0 <= i < |w| ==> !Text.IsSpace(w[i])
  }

  lemma NetworkVisible()
    ensures Visible("Network")
  {
  }

  lemma OptimizationVisible()
    ensures Visible("Optimization")
  {
  }

  lemma RewriteTail()
    ensures Text.ReplaceSpaceRuns("Network" + " " + "Optimization") == "Network" + "_" + "Optimization"
  {
    OptimizationVisible();
    NetworkVisible();
    Text.ReplaceSpaceRunsKeepsSpaceFree("Optimization");
    RewriteWordThenRest("Network", "Optimization");
  }

  lemma RewriteMiddle()
    ensures Text.ReplaceSpaceRuns("1:" + " " + ("Network" + " " + "Optimization"))
      == "1:" + "_" + ("Network" + "_" + "Optimization")
  {
    var tail := "Network" + " " + "Optimization";
    RewriteTail();
    assert tail[0] == 'N';
    RewriteWordThenRest("1:", tail);
  }

  lemma RewriteTitle()
    ensures Text.ReplaceSpaceRuns(SpacedTitle) == "Unit" + "_" + ("1:" + "_" + ("Network" + "_" + "Optimization"))
  {
    var mid := "1:" + " " + ("Network" + " " + "Optimization");
    RewriteMiddle();
    assert mid[0] == '1';
    RewriteWordThenRest("Unit", mid);
  }

  /** An empty question list: the quiz shows the failure screen, no click
      ever reports a result, and so no unit is marked completed. */
  lemma GenerationFailureCompletesNothing(actions: seq<QuizEngine.QuizAction>)
    ensures var s0 := QuizEngine.Loaded(QuizEngine.Start(Navigation.QuizTopic(OnUnitQuiz)), []);
      var run := QuizEngine.Drive(s0, actions);
      && s0.Failed?
      && Navigation.OnQuizSignals(OnUnitQuiz, run.1).catalogue == [Scm]
      && Navigation.OnQuizSignals(OnUnitQuiz, run.1).selectedCourse == Some(Scm)
  {
    var s0 := QuizEngine.Loaded(QuizEngine.Start("Unit 1"), []);
    QuizEngine.FailedNeverCompletes("Unit 1", actions);
    Navigation.NoResultKeepsUnits(OnUnitQuiz, QuizEngine.Drive(s0, actions).1);
  }

  /** Select a unit, navigate home, then force the unit view: with the unit
      cleared the page renders nothing (not the dashboard). */
  lemma UnitPageWithoutUnit()
    ensures var s := Navigation.Navigate(Navigation.SelectUnit(OnUnitQuiz, Unit2), Dashboard);
      && Navigation.Render(s) == Navigation.StudentHome
      && Navigation.Render(s.(view := UnitDetail)) == Navigation.Blank
  {
  }

  /** No "A" of `t` is followed by "s", so "Assessment" occurs nowhere in it. */
  predicate NoCapitalAThenS(t: string) {
    forall j :: 0 <= j < |t| - 1 ==> !(t[j] == 'A' && t[j + 1] == 's')
  }

  lemma NotAssessmentTitle(u: Unit)
    requires NoCapitalAThenS(u.title)
    ensures !Faculty.IsAssessment(u)
  {
    var t := u.title;
    forall i | 0 <= i && i + 10 <= |t|
      ensures !Text.OccursAt(t, "Assessment", i)
    {
      assert t[i..i + 10][0] == t[i] && t[i..i + 10][1] == t[i + 1];
    }
  }

  /** A content unit is badged as an assessment only if its kind itself
      holds an "A" followed by "s": the words around the kind hold none. */
  lemma ContentTitleNotAssessment(kind: string, stamp: string)
    requires NoCapitalAThenS(kind)
    ensures !Faculty.IsAssessment(Faculty.ContentUnit(kind, stamp))
  {
    var u := Faculty.ContentUnit(kind, stamp);
    var t := u.title;
    assert t == "New " + kind + " Module";
    forall j | 0 <= j < |t| - 1
      ensures !(t[j] == 'A' && t[j + 1] == 's')
    {
      if 4 <= j < 4 + |kind| - 1 {
        assert t[j] == kind[j - 4] && t[j + 1] == kind[j - 3];
      } else if j == 4 + |kind| - 1 {
        assert t[j + 1] == ' ';
      } else if j > 4 + |kind| - 1 {
        assert t[j] == " Module"[j - 4 - |kind|];
      } else {
        assert t[j] == "New "[j];
      }
    }
    NotAssessmentTitle(u);
  }

  /** The three upload buttons' content units ("New PDF DOCUMENT Module",
      "New VIDEO FEED Module", "New IMAGE ASSET Module") get no assessment
      badge; each shows the notes badge instead. */
  lemma UploadedContentIsNotAssessment(stamp: string)
    ensures !Faculty.IsAssessment(Faculty.ContentUnit("PDF DOCUMENT", stamp))
    ensures !Faculty.IsAssessment(Faculty.ContentUnit("VIDEO FEED", stamp))
    ensures !Faculty.IsAssessment(Faculty.ContentUnit("IMAGE ASSET", stamp))
    ensures Faculty.ShowsNotesBadge(Faculty.ContentUnit("PDF DOCUMENT", stamp))
    ensures Faculty.ShowsNotesBadge(Faculty.ContentUnit("VIDEO FEED", stamp))
    ensures Faculty.ShowsNotesBadge(Faculty.ContentUnit("IMAGE ASSET", stamp))
  {
    UploadKindsHaveNoAs();
    ContentTitleNotAssessment("PDF DOCUMENT", stamp);
    ContentTitleNotAssessment("VIDEO FEED", stamp);
    ContentTitleNotAssessment("IMAGE ASSET", stamp);
  }

  lemma UploadKindsHaveNoAs()
    ensures NoCapitalAThenS("PDF DOCUMENT")
    ensures NoCapitalAThenS("VIDEO FEED")
    ensures NoCapitalAThenS("IMAGE ASSET")
  {
    var p, v, m := "PDF DOCUMENT", "VIDEO FEED", "IMAGE ASSET";
    assert forall j :: 0 <= j < |p| ==> p[j] != 's';
    assert forall j :: 0 <= j < |v| ==> v[j] != 's';
    assert forall j :: 0 <= j < |m| ==> m[j] != 's';
  }

  const Roster: seq<StudentSummary> := [
    StudentSummary("s1", "Rohan", "a", "1", 92, Low, "10m", "e", "MBA"),
    StudentSummary("s2", "Aditi", "a", "2", 88, Low, "1h", "e", "MBA"),
    StudentSummary("s3", "Kabir", "a", "3", 70, Medium, "2d", "e", "MBA"),
    StudentSummary("s4", "Meera", "a", "4", 55, High, "5d", "e", "MBA")
  ]

  /** The mock roster has one high-risk student, the last one. */
  lemma RosterHasOneHighRisk()
    ensures Faculty.HighRisk(Roster) == [Roster[3]]
  {
  }
}

=== FILE: text.dfy ===
/** The few JavaScript string primitives the handlers rely on: the `\s`
    character class, `String.prototype.trim`, `includes`, and the
    `replace(/\s+/g, '_')` rewrite used for export file names. */
module Text {

  /** JavaScript's `\s`: the ECMAScript WhiteSpace and LineTerminator code
      points (tab, line feed, vertical tab, form feed, carriage return, space,
      no-break space, the Unicode space separators, the line and paragraph
      separators and the byte-order mark). */
  predicate IsSpace(c: char) {
    var n := c as int;
    || n == 0x09 || n == 0x0A || n == 0x0B || n == 0x0C || n == 0x0D
    || n == 0x20 || n == 0xA0 || n == 0x1680
    || (0x2000 <= n <= 0x200A)
    || n == 0x2028 || n == 0x2029 || n == 0x202F || n == 0x205F
    || n == 0x3000 || n == 0xFEFF
  }

  /** The usual separators are white space, and no letter, digit or
      underscore is: in particular the `_` that replaces a run is not. */
  lemma SpaceClass(c: char)
    ensures c == ' ' || c == '\t' || c == '\n' || c == '\r' ==> IsSpace(c)
    ensures ('0' <= c <= '9') || ('a' <= c <= 'z') || ('A' <= c <= 'Z') || c == '_' || c == ':' ==> !IsSpace(c)
  {
  }

  /** Every character of `s` is white space (vacuously true of ""). */
  predicate IsBlank(s: string) {
    forall i :: 0 <= i < |s| ==> IsSpace(s[i])
  }

  /** Drops the leading white space: the result is the longest suffix of `s`
      that does not start with white space. */
  function TrimStart(s: string): (r: string)
    ensures |r| <= |s| && r == s[|s| - |r|..]
    ensures r == [] || !IsSpace(r[0])
    ensures forall i :: 0 <= i < |s| - |r| ==> IsSpace(s[i])
    decreases |s|
  {
    if |s| > 0 && IsSpace(s[0]) then TrimStart(s[1..]) else s
  }

  /** Drops the trailing white space: the result is the longest prefix of `s`
      that does not end with white space. */
  function TrimEnd(s: string): (r: string)
    ensures |r| <= |s| && r == s[..|r|]
    ensures r == [] || !IsSpace(r[|r| - 1])
    ensures forall i :: |r| <= i < |s| ==> IsSpace(s[i])
    decreases |s|
  {
    if |s| > 0 && IsSpace(s[|s| - 1]) then TrimEnd(s[..|s| - 1]) else s
  }

  /** `r` is the slice of `s` at `i` with only white space around it. */
  predicate TrimmedAt(s: string, r: string, i: int) {
    && 0 <= i && i + |r| <= |s|
    && r == s[i..i + |r|]
    && IsBlank(s[..i]) && IsBlank(s[i + |r|..])
  }

  /** `String.prototype.trim`: a slice of `s` that neither starts nor ends
      with white space, with only white space cut off either side. */
  function Trim(s: string): (r: string)
    ensures |r| <= |s|
    ensures r == [] || (!IsSpace(r[0]) && !IsSpace(r[|r| - 1]))
    ensures exists i :: TrimmedAt(s, r, i)
  {
    var t := TrimStart(s);
    var r := TrimEnd(t);
    assert r == [] || r[0] == t[0];
    TrimIsSlice(s, t, r);
    r
  }

  /** Trimming the end of the start-trimmed string leaves a slice of `s`
      with only white space around it. */
  lemma TrimIsSlice(s: string, t: string, r: string)
    requires |t| <= |s| && t == s[|s| - |t|..]
    requires forall i :: 0 <= i < |s| - |t| ==> IsSpace(s[i])
    requires |r| <= |t| && r == t[..|r|]
    requires forall i :: |r| <= i < |t| ==> IsSpace(t[i])
    ensures TrimmedAt(s, r, |s| - |t|)
  {
    var k := |s| - |t|;
    SliceOfSuffix(s, t, r, k);
    BlankPrefix(s, k);
    BlankAfter(s, t, r, k);
  }

  lemma SliceOfSuffix(s: string, t: string, r: string, k: int)
    requires 0 <= k <= |s| && t == s[k..] && |r| <= |t| && r == t[..|r|]
    ensures s[k..k + |r|] == r
  {
  }

  lemma BlankPrefix(s: string, k: int)
    requires 0 <= k <= |s|
    requires forall i :: 0 <= i < k ==> IsSpace(s[i])
    ensures IsBlank(s[..k])
  {
    forall j | 0 <= j < k
      ensures IsSpace(s[..k][j])
    {
      assert s[..k][j] == s[j];
    }
  }

  lemma BlankAfter(s: string, t: string, r: string, k: int)
    requires 0 <= k <= |s| && t == s[k..] && |r| <= |t|
    requires forall i :: |r| <= i < |t| ==> IsSpace(t[i])
    ensures IsBlank(s[k + |r|..])
  {
    var tail := s[k + |r|..];
    forall j | 0 <= j < |tail|
      ensures IsSpace(tail[j])
    {
      assert tail[j] == t[|r| + j];
    }
  }

  /** A string is falsy after trimming exactly when it is all white space. */
  lemma TrimEmptyIffBlank(s: string)
    ensures Trim(s) == [] <==> IsBlank(s)
  {
    var t := TrimStart(s);
    if Trim(s) == [] {
      assert t == [];
    }
  }

  /** `pat` occurs in `s` starting at index `i`. */
  predicate OccursAt(s: string, pat: string, i: int)
    requires 0 <= i && i + |pat| <= |s|
  {
    s[i..i + |pat|] == pat
  }

  /** `String.prototype.includes`: true iff `pat` occurs somewhere in `s`.
      The empty pattern occurs in every string, a pattern longer than `s`
      in none, and a prefix always does. */
  function Contains(s: string, pat: string): (b: bool)
    ensures b <==> exists i :: 0 <= i && i + |pat| <= |s| && OccursAt(s, pat, i)
    ensures pat == [] ==> b
    ensures b ==> |pat| <= |s|
    ensures |pat| <= |s| && s[..|pat|] == pat ==> b
  {
    if |pat| <= |s| && s[..|pat|] == pat then
      assert OccursAt(s, pat, 0);
      true
    else
      exists i :: 0 <= i && i + |pat| <= |s| && OccursAt(s, pat, i)
  }

  /** `s.replace(/\s+/g, '_')`: every maximal run of white space becomes one
      underscore. The result holds no white space and is never longer. */
  function ReplaceSpaceRuns(s: string): (r: string)
    ensures forall i :: 0 <= i < |r| ==> !IsSpace(r[i])
    ensures |r| <= |s|
    decreases |s|
  {
    if s == [] then []
    else if IsSpace(s[0]) then "_" + ReplaceSpaceRuns(TrimStart(s))
    else [s[0]] + ReplaceSpaceRuns(s[1..])
  }

  /** A string without white space is left as it is. */
  lemma {:induction false} ReplaceSpaceRunsKeepsSpaceFree(s: string)
    requires forall i :: 0 <= i < |s| ==> !IsSpace(s[i])
    ensures ReplaceSpaceRuns(s) == s
    decreases |s|
  {
    if s != [] {
      ReplaceSpaceRunsKeepsSpaceFree(s[1..]);
    }
  }

  /** Blank text in front of a string that does not start with white space
      is exactly what trimming the start removes. */
  lemma {:induction false} TrimStartOfBlank(w: string, b: string)
    requires IsBlank(w)
    requires b == [] || !IsSpace(b[0])
    ensures TrimStart(w + b) == b
    decreases |w|
  {
    if w != [] {
      assert (w + b)[1..] == w[1..] + b;
      TrimStartOfBlank(w[1..], b);
    } else {
      assert w + b == b;
    }
  }

  /** Trimming the start of `x + y`, where `x` ends in a visible character,
      only touches `x`. */
  lemma {:induction false} TrimStartOfConcat(x: string, y: string)
    requires x != [] && !IsSpace(x[|x| - 1])
    ensures TrimStart(x + y) == TrimStart(x) + y
    decreases |x|
  {
    if IsSpace(x[0]) {
      assert (x + y)[1..] == x[1..] + y;
      TrimStartOfConcat(x[1..], y);
    }
  }

  /** One run of white space between two parts becomes exactly one
      underscore, and the parts are rewritten on their own. With
      `ReplaceSpaceRunsKeepsSpaceFree` this fixes the rewrite on every
      string. */
  lemma {:induction false} ReplaceSpaceRunsSplit(a: string, w: string, b: string)
    requires w != [] && IsBlank(w)
    requires a == [] || !IsSpace(a[|a| - 1])
    requires b == [] || !IsSpace(b[0])
    ensures ReplaceSpaceRuns(a + w + b) == ReplaceSpaceRuns(a) + "_" + ReplaceSpaceRuns(b)
    decreases |a|
  {
    if a == [] {
      SplitAtStart(a, w, b);
    } else if IsSpace(a[0]) {
      TrimStartEndsVisibly(a);
      ReplaceSpaceRunsSplit(TrimStart(a), w, b);
      SplitAfterSpace(a, w, b);
    } else {
      assert a[1..] == [] || a[1..][|a[1..]| - 1] == a[|a| - 1];
      ReplaceSpaceRunsSplit(a[1..], w, b);
      SplitAfterVisible(a, w, b);
    }
  }

  /** Trimming the start of a string that ends visibly leaves it ending
      with the same character. */
  lemma TrimStartEndsVisibly(a: string)
    requires a != [] && !IsSpace(a[|a| - 1])
    ensures TrimStart(a) != [] && !IsSpace(TrimStart(a)[|TrimStart(a)| - 1])
  {
    var t := TrimStart(a);
    assert t != [] && t[|t| - 1] == a[|a| - 1];
  }

  /** The split with nothing in front of the run. */
  lemma SplitAtStart(a: string, w: string, b: string)
    requires a == [] && w != [] && IsBlank(w)
    requires b == [] || !IsSpace(b[0])
    ensures ReplaceSpaceRuns(a + w + b) == ReplaceSpaceRuns(a) + "_" + ReplaceSpaceRuns(b)
  {
    var rb := ReplaceSpaceRuns(b);
    calc {
      ReplaceSpaceRuns(a + w + b);
      { assert a + w + b == w + b; }
      ReplaceSpaceRuns(w + b);
      { SplitAtStartOfBlank(w, b); }
      "_" + rb;
      { assert ReplaceSpaceRuns(a) == []; }
      ReplaceSpaceRuns(a) + "_" + rb;
    }
  }

  lemma SplitAtStartOfBlank(w: string, b: string)
    requires w != [] && IsBlank(w)
    requires b == [] || !IsSpace(b[0])
    ensures ReplaceSpaceRuns(w + b) == "_" + ReplaceSpaceRuns(b)
  {
    assert (w + b)[0] == w[0];
    TrimStartOfBlank(w, b);
  }

  /** The split step when the first part starts with white space. */
  lemma SplitAfterSpace(a: string, w: string, b: string)
    requires a != [] && IsSpace(a[0]) && !IsSpace(a[|a| - 1])
    requires ReplaceSpaceRuns(TrimStart(a) + w + b)
      == ReplaceSpaceRuns(TrimStart(a)) + "_" + ReplaceSpaceRuns(b)
    ensures ReplaceSpaceRuns(a + w + b) == ReplaceSpaceRuns(a) + "_" + ReplaceSpaceRuns(b)
  {
    var t := TrimStart(a);
    ConcatAssoc(a, w, b);
    ConcatAssoc(t, w, b);
    SpaceHead(a, w + b);
    SeqAssoc("_", ReplaceSpaceRuns(t), "_", ReplaceSpaceRuns(b));
  }

  /** The split step when the first part starts with a visible character. */
  lemma SplitAfterVisible(a: string, w: string, b: string)
    requires a != [] && !IsSpace(a[0])
    requires ReplaceSpaceRuns(a[1..] + w + b) == ReplaceSpaceRuns(a[1..]) + "_" + ReplaceSpaceRuns(b)
    ensures ReplaceSpaceRuns(a + w + b) == ReplaceSpaceRuns(a) + "_" + ReplaceSpaceRuns(b)
  {
    ConcatAssoc(a, w, b);
    ConcatAssoc(a[1..], w, b);
    VisibleHead(a, w + b);
    SeqAssoc([a[0]], ReplaceSpaceRuns(a[1..]), "_", ReplaceSpaceRuns(b));
  }

  /** A visible first character is copied and the rest rewritten, whatever follows. */
  lemma VisibleHead(a: string, r: string)
    requires a != [] && !IsSpace(a[0])
    ensures ReplaceSpaceRuns(a + r) == [a[0]] + ReplaceSpaceRuns(a[1..] + r)
  {
    assert (a + r)[0] == a[0];
    assert (a + r)[1..] == a[1..] + r;
  }

  /** A leading run of white space in a part that ends visibly becomes one
      underscore, whatever follows. */
  lemma SpaceHead(a: string, r: string)
    requires a != [] && IsSpace(a[0]) && !IsSpace(a[|a| - 1])
    ensures ReplaceSpaceRuns(a + r) == "_" + ReplaceSpaceRuns(TrimStart(a) + r)
  {
    assert (a + r)[0] == a[0];
    TrimStartOfConcat(a, r);
  }

  lemma ConcatAssoc(x: string, w: string, b: string)
    ensures x + w + b == x + (w + b)
  {
  }

  lemma SeqAssoc(p: string, q: string, u: string, v: string)
    ensures p + (q + u + v) == (p + q) + u + v
  {
  }

  /** Rewriting twice is the same as rewriting once. */
  lemma ReplaceSpaceRunsIdempotent(s: string)
    ensures ReplaceSpaceRuns(ReplaceSpaceRuns(s)) == ReplaceSpaceRuns(s)
  {
    ReplaceSpaceRunsKeepsSpaceFree(ReplaceSpaceRuns(s));
  }
}

=== FILE: tutor.dfy ===
/** The chat panel of `components/AITutor.tsx`. Sending is split into the
    two halves around the `await`: `BeginSend` appends the user's message and
    hands a request to the reply generator, `EndSend` appends the reply. The
    generator itself is an input: its outcome is a parameter. */
module Tutor {
  import opened Types
  import Text

  datatype AttachmentKind = Doc | Image

  datatype Attachment = Attachment(name: string, kind: AttachmentKind)

  datatype TutorState = TutorState(
    messages: seq<ChatMessage>,
    input: string,
    loading: bool,
    attachment: Option<Attachment>)

  /** A history entry as handed to the generator: role and text only. */
  datatype Turn = Turn(role: ChatRole, text: string)

  /** What the generator is asked: the history before the new message, the
      message text and the fixed enrolment context. */
  datatype Request = Request(history: seq<Turn>, message: string, context: string)

  const InitialTutorMessage: string :=
    "Connection established. I am your FASN AI Link. Accessing course database... Ready. What module shall we decrypt today?"

  const EnrolmentContext: string := "User is currently enrolled in MBA-601, MBA-604, MBA-609."

  /** The panel as mounted: one greeting from the model, nothing typed,
      nothing loading, nothing attached. */
  function Initial(now: int): (s: TutorState)
    ensures |s.messages| == 1
    ensures s.messages[0].role == FromModel && s.messages[0].text == InitialTutorMessage
    ensures s.input == "" && !s.loading && s.attachment.None?
  {
    TutorState([ChatMessage("init", FromModel, InitialTutorMessage, now)], "", false, None)
  }

  /** The text actually sent: the input, prefixed with the attachment's name
      when a file is attached. */
  function OutgoingText(input: string, attachment: Option<Attachment>): (t: string)
    ensures attachment.None? ==> t == input
    ensures attachment.Some? ==>
      && |t| == |"[ATTACHMENT: "| + |attachment.value.name| + |"] "| + |input|
      && t[..13] == "[ATTACHMENT: "
      && t[|t| - |input|..] == input
  {
    match attachment
    case None => input
    case Some(a) => "[ATTACHMENT: " + a.name + "] " + input
  }

  /** The attachment prefix can be taken apart again: the name and the input
      are recovered from the sent text. */
  lemma OutgoingTextRecoversParts(input: string, a: Attachment)
    ensures var t := OutgoingText(input, Some(a));
      && t[13..13 + |a.name|] == a.name
      && t[13 + |a.name|..15 + |a.name|] == "] "
      && t[15 + |a.name|..] == input
  {
  }

  /** The guard of `handleSend`: something to send and no reply pending. An
      input counts as something exactly when it is not all white space. */
  function CanSend(s: TutorState): (b: bool)
    ensures b <==> (!Text.IsBlank(s.input) || s.attachment.Some?) && !s.loading
  {
    Text.TrimEmptyIffBlank(s.input);
    (Text.Trim(s.input) != "" || s.attachment.Some?) && !s.loading
  }

  /** The role-and-text projection of the conversation. */
  function History(ms: seq<ChatMessage>): (h: seq<Turn>)
    ensures |h| == |ms|
    ensures forall i :: 0 <= i < |ms| ==> h[i] == Turn(ms[i].role, ms[i].text)
  {
    seq(|ms|, i requires 0 <= i < |ms| => Turn(ms[i].role, ms[i].text))
  }

  /** First half of `handleSend`: if the guard fails nothing happens and no
      request is made. Otherwise the user's message (with id `id` and clock
      `now`) is appended, input and attachment are cleared, `loading` is set,
      and the generator is asked with the history from before the append. */
  function BeginSend(s: TutorState, id: string, now: int): (res: (TutorState, Option<Request>))
    ensures !CanSend(s) ==> res == (s, None)
    ensures CanSend(s) ==>
      var text := OutgoingText(s.input, s.attachment);
      && res.0.messages == s.messages + [ChatMessage(id, FromUser, text, now)]
      && res.0.input == "" && res.0.attachment.None? && res.0.loading
      && res.1 == Some(Request(History(s.messages), text, EnrolmentContext))
  {
    if !CanSend(s) then (s, None)
    else
      var text := OutgoingText(s.input, s.attachment);
      (TutorState(s.messages + [ChatMessage(id, FromUser, text, now)], "", true, None),
       Some(Request(History(s.messages), text, EnrolmentContext)))
  }

  /** Second half: the reply is appended as one model message after
      everything already in the list, and `loading` drops. */
  function EndSend(s: TutorState, reply: string, id: string, now: int): (s': TutorState)
    ensures s'.messages == s.messages + [ChatMessage(id, FromModel, reply, now)]
    ensures !s'.loading && s'.input == s.input && s'.attachment == s.attachment
  {
    s.(messages := s.messages + [ChatMessage(id, FromModel, reply, now)], loading := false)
  }

  /** The generator's possible outcomes: a reply text (possibly empty), or
      a failure. */
  datatype ReplyOutcome = Replied(text: string) | Threw

  /** The reply shown for an outcome: the text, a fixed notice for an empty
      text, and another for a failure. */
  function ReplyText(o: ReplyOutcome): (t: string)
    ensures t != ""
    ensures o.Replied? && o.text != "" ==> t == o.text
  {
    match o
    case Replied(text) => if text != "" then text else "Error: Data stream interrupted."
    case Threw => "Connection instability detected. Unable to process query."
  }

  /** A whole send: a guarded first half followed by the second half adds
      exactly the user's message then one non-empty model reply, keeps every
      earlier message in place, and leaves the panel idle again. While the
      reply is pending a second send does nothing. */
  lemma SendRoundTrip(s: TutorState, o: ReplyOutcome, id1: string, id2: string, t1: int, t2: int)
    requires CanSend(s)
    ensures var (mid, req) := BeginSend(s, id1, t1);
      var s' := EndSend(mid, ReplyText(o), id2, t2);
      && BeginSend(mid, id2, t2) == (mid, None)
      && |s'.messages| == |s.messages| + 2
      && s'.messages[..|s.messages|] == s.messages
      && s'.messages[|s.messages|].role == FromUser
      && s'.messages[|s.messages|].text == req.value.message
      && s'.messages[|s.messages| + 1].role == FromModel
      && s'.messages[|s.messages| + 1].text != ""
      && |req.value.history| == |s.messages|
      && !s'.loading && s'.input == "" && s'.attachment.None?
  {
    var (mid, req) := BeginSend(s, id1, t1);
    var s' := EndSend(mid, ReplyText(o), id2, t2);
    assert s'.messages == s.messages + [mid.messages[|s.messages|], s'.messages[|s.messages| + 1]];
  }

  /** `handleFileUpload`: a chosen file becomes a document attachment named
      after it; no file leaves the attachment as it was. */
  function FileUpload(s: TutorState, file: Option<string>): (s': TutorState)
    ensures file.None? ==> s' == s
    ensures file.Some? ==> s'.attachment == Some(Attachment(file.value, Doc))
    ensures s'.(attachment := s.attachment) == s
  {
    match file
    case None => s
    case Some(name) => s.(attachment := Some(Attachment(name, Doc)))
  }

  /** The attachment chip's remove button. */
  function RemoveAttachment(s: TutorState): (s': TutorState)
    ensures s'.attachment.None? && s'.(attachment := s.attachment) == s
  {
    s.(attachment := None)
  }

  /** Removing a freshly attached file restores the panel; choosing no file
      leaves it as it was. */
  lemma AttachmentRoundTrip(s: TutorState, name: string)
    ensures s.attachment.None? ==> RemoveAttachment(FileUpload(s, Some(name))) == s
    ensures RemoveAttachment(FileUpload(s, None)) == RemoveAttachment(s)
    ensures !s.loading && Text.IsBlank(s.input) && s.attachment.None? ==> !CanSend(s)
  {
    Text.TrimEmptyIffBlank(s.input);
  }

  const SampleDictation: string := "Explain the concept of Elasticity in Supply Chain..."

  /** The microphone button fills the input with a canned question. */
  function Dictate(s: TutorState): (s': TutorState)
    ensures s'.input == SampleDictation
    ensures s'.(input := s.input) == s
  {
    s.(input := SampleDictation)
  }

  /** An attachment alone is enough to send, even with an empty input; the
      sent text then carries only the prefix. */
  lemma AttachmentAloneSends(s: TutorState, name: string, id: string, now: int)
    requires !s.loading && s.input == ""
    ensures var s1 := FileUpload(s, Some(name));
      && CanSend(s1)
      && BeginSend(s1, id, now).1.value.message == "[ATTACHMENT: " + name + "] "
  {
  }
}

=== FILE: types.dfy ===
/** Records of the portal's domain, mirroring the interfaces of `types.ts`.
    Every record is an immutable value; the source's in-place mutation of a
    unit's `completed` flag is modelled by updates that return new values. */
module Types {

  /** Conventional optional value, standing for the source's `T | null`. */
  datatype Option<+T> = None | Some(value: T)

  datatype UserRole = Student | Faculty | Admin

  /** A signed-in user. The optional profile details of the source are kept
      as `Option`s; the per-semester GPA history is left out (floating point). */
  datatype User = User(
    id: string,
    name: string,
    email: string,
    role: UserRole,
    avatar: string,
    xp: Option<int>,
    level: Option<int>,
    badges: Option<seq<string>>,
    className: Option<string>,
    semester: Option<int>,
    regNo: Option<string>)

  datatype RiskLevel = Low | Medium | High

  /** One roster entry of the faculty view (GPA figures left out). */
  datatype StudentSummary = StudentSummary(
    id: string,
    name: string,
    avatar: string,
    rollNo: string,
    attendance: int,
    riskLevel: RiskLevel,
    lastActive: string,
    email: string,
    className: string)

  datatype Unit = Unit(
    id: string,
    title: string,
    description: string,
    videoUrl: string,
    notes: string,
    completed: bool)

  datatype Course = Course(
    id: string,
    code: string,
    title: string,
    instructor: string,
    progress: int,
    thumbnail: string,
    tags: seq<string>,
    description: string,
    units: seq<Unit>)

  /** A generated multiple-choice question; `correctAnswer` is the text of the
      right option and is not checked against `options`. */
  datatype QuizQuestion = QuizQuestion(question: string, options: seq<string>, correctAnswer: string)

  datatype Mastery = Beginner | Intermediate | Advanced

  datatype QuizResult = QuizResult(score: int, total: int, masteryLevel: Mastery)

  datatype ChatRole = FromUser | FromModel

  /** A tutor conversation entry; the `Date` timestamp is a millisecond count. */
  datatype ChatMessage = ChatMessage(id: string, role: ChatRole, text: string, timestamp: int)

  datatype ViewState = Dashboard | CourseDetail | UnitDetail | AiTutor | Analytics
}
